=== FILE: README.md ===
# Lumina session logic in Dafny

Lumina is a single-page "virtual wardrobe": the user captures a photo, picks
a style preset (or types a custom prompt), and an image model re-dresses the
photo; the result can be animated into a short video. This project models the
session state machine of the root component (`App.tsx`) and the filtering and
card derivation of the style grid (`components/StyleGrid.tsx`) as pure Dafny
functions over immutable records, and proves what those handlers promise.

Layout, one module per file:

- `wrappers.dfy` (`Wrappers`): `Option`, the gateway `Outcome` (`Ok(value)` or
  `Fail`), and `Present`, JavaScript truthiness of a nullable string.
- `text.dfy` (`Text`): `String.prototype.trim` over the ECMAScript white-space
  and line-terminator code points, `length` in UTF-16 code units, and the
  Latin-1 range `btoa` accepts. Strings are sequences of code points; every
  character `trim` strips lies below U+10000, so trimming code points and
  trimming UTF-16 code units agree.
- `seqs.dfy` (`Seqs`): `Array.prototype.filter` and order facts.
- `types.dfy` (`Types`): `StylePreset`, `CapturedImage`, `Step`, `AppState`.
- `catalog.dfy` (`Catalog`): the six built-in presets, the combined catalog,
  `find` by identifier.
- `store.dfy` (`Store`): favourites toggling, style removal, and the
  identifier and record a saved custom style gets.
- `grid.dfy` (`StyleGrid`): the favourites filter, the "No favorites"
  placeholder, and each card's flags and callback arguments.
- `deeplink.dfy` (`DeepLink`): `URLSearchParams` get/set, start-up link
  resolution, and the two share links.
- `app.dfy` (`App`): the session record and every handler. Each awaited
  gateway call is split into `...Begin` (what runs when the user acts) and
  `...Settle` (what runs when the call resolves). The composite (`Capture`,
  `Transform`, `Animate`) is the case where the call resolves before anything
  else happens.
- `traces.dfy` (`Traces`): user events, which controls are on screen, and
  invariants over every event trace from mount.

Gateway calls (analysis, transformation, video) are the `Outcome` parameter
of their handler. The clock reading behind `Date.now()` is a `now: nat`
parameter. The `atob`/`JSON.parse` decoder is a `string -> Decoded` parameter
and the `btoa(JSON.stringify(...))` encoder a `string -> string` parameter.

## Model

| member | source | states |
|---|---|---|
| Text.Trim | App.tsx:152 | `trim()` is empty exactly when the text is all white space; otherwise it starts and ends with a non-white-space character |
| Text.TrimIsInfix | App.tsx:152 | `trim()` returns a contiguous slice of its input, and everything cut off on either side is white space |
| Text.TrimIdempotent | App.tsx:206 | trimming an already trimmed text (a saved prompt) changes nothing |
| Text.Utf16Length | App.tsx:250 | `length` counts one unit for a code point up to U+FFFF and two above it; it lies between one and two units per code point and equals the number of code points exactly when none lies above U+FFFF |
| Text.Utf16LengthAppend | App.tsx:250 | the `length` of a concatenation is the sum of the lengths, so with the one-character values it fixes the length of every text |
| Seqs.Filter | components/StyleGrid.tsx:27 | `filter` keeps exactly the elements passing the test, in order, and never grows the list |
| Seqs.FilterCount | components/StyleGrid.tsx:27 | `filter` keeps each passing element as often as it occurs and drops the rest |
| Seqs.FilterAll | components/StyleGrid.tsx:26-28 | when every element passes, `filter` returns the list unchanged |
| Seqs.FilterAppend | App.tsx:230 | filtering a list with an appended element filters each part separately |
| Seqs.FilterNoDup | App.tsx:230 | filtering a duplicate-free list keeps it duplicate-free |
| Catalog.FindById | App.tsx:69 | `find` returns the first catalog member carrying the identifier, and returns nothing only when no member carries it |
| Catalog.AllStyles | App.tsx:43 | the combined catalog is the six built-ins, in order, followed by the saved styles |
| Catalog.FindIndex | App.tsx:69 | the index `find` stops at is the first one whose identifier matches, or -1 when none does |
| Catalog.FindByOwnId | App.tsx:69 | with distinct identifiers, looking a member up by its own identifier finds that member |
| Catalog.BuiltInFacts | constants.tsx:5-48 | the six presets are not custom, and their identifiers are non-empty and are cyberpunk, formal, bohemian, regal, sporty, steampunk in order |
| Catalog.BuiltInIdsUnique | constants.tsx:5-48 | the built-in identifiers are pairwise distinct |
| Catalog.CustomIdNotBuiltIn | App.tsx:203 | an identifier starting with `custom-` is never a built-in identifier |
| Store.RemoveFavorite | App.tsx:224 | removing an id from the favourites deletes every occurrence of it and keeps every other id, in order |
| Store.RemoveFavoriteCount | App.tsx:224 | removing an id keeps every other id exactly as many times as it occurred |
| Store.ToggleFavorite | App.tsx:228-232 | toggling flips membership of the id, appends it at the end when absent, keeps other ids, and keeps the list duplicate-free |
| Store.ToggleTwice | App.tsx:228-232 | toggling the same id twice restores membership, and restores the list when the id was absent |
| Store.RemoveStyle | App.tsx:220 | removing a style id keeps exactly the styles with other ids, in order, and keeps identifiers distinct |
| Store.RemoveStyleCount | App.tsx:220 | removing a style id keeps every style with another id exactly as many times as it occurred |
| Store.AppendKeepsUnique | App.tsx:211 | appending a style with a new identifier keeps identifiers distinct |
| Store.SaveNewIdKeepsUnique | App.tsx:211 | saving a style whose id is neither built-in nor already saved keeps the combined catalog's ids distinct |
| Store.RemovedFromCatalog | App.tsx:220 | after removal, no style of the combined catalog carries a non-built-in removed id |
| Store.NatToDecimal | App.tsx:203 | a clock value prints as non-empty decimal digits without a leading zero |
| Store.DecimalRoundTrip | App.tsx:203 | the printed clock value reads back as the same number |
| Store.CustomId | App.tsx:203 | a saved style's id is `custom-` followed by the decimal digits of the clock reading |
| Store.CustomIdInjective | App.tsx:203 | two clock readings give the same id only if they are equal |
| Store.NewCustomStyle | App.tsx:202-209 | the saved style is custom, its id is `custom-` plus the clock reading (hence not built-in and non-empty), with the trimmed name and prompt, "Your custom vision" and the sparkles icon |
| StyleGrid.FilteredStyles | components/StyleGrid.tsx:26-28 | without the favourites filter the grid shows every style in order; with it, exactly the styles whose id is a favourite, in catalog order |
| StyleGrid.FilteredStylesCount | components/StyleGrid.tsx:26-28 | the favourites view keeps each favourite style as many times as it occurs and drops the rest; the full view keeps every count |
| StyleGrid.CardFor | components/StyleGrid.tsx:45-128 | a card shows its style, is marked favourite iff the id is in `favorites`, selected iff the id is `selectedId`, passes its own id to the heart and its style to share, and offers deletion of its id iff the style is custom |
| StyleGrid.Render | components/StyleGrid.tsx:30-128 | "No favorites" appears iff only favourites are requested and no style is a favourite; otherwise one card per shown style, favourite iff its id is in `favorites`, selected iff its id is `selectedId`, favourite and share callbacks get the card's own id and style, deletable iff the style is custom |
| StyleGrid.AtMostOneSelected | components/StyleGrid.tsx:47 | with distinct identifiers at most one card is highlighted as selected |
| StyleGrid.FilterUnique | components/StyleGrid.tsx:27 | the favourites filter keeps identifiers distinct |
| StyleGrid.BuiltInsNotDeletable | components/StyleGrid.tsx:113-128 | in the unfiltered grid the six built-in cards come first and none offers a delete control |
| StyleGrid.ToggleFlipsCard | components/StyleGrid.tsx:76-91 | in the unfiltered grid, pressing a card's heart flips that card's favourite mark and leaves every card with another identifier unchanged |
| StyleGrid.CardFromStyles | components/StyleGrid.tsx:45 | every card shows a style from the grid's `styles` prop |
| StyleGrid.DeletableNotBuiltIn | components/StyleGrid.tsx:113-119 | with distinct identifiers, the id a delete control passes on is not a built-in id |
| StyleGrid.NoCardWithout | components/StyleGrid.tsx:45-47 | when no style carries an id, no card does |
| DeepLink.Get | App.tsx:65-66 | `get` returns nothing iff no pair has the name, otherwise the value of the first pair with that name |
| DeepLink.Drop | App.tsx:236 | dropping a name removes all its pairs and leaves every other name's value as it was |
| DeepLink.Set | App.tsx:236 | after `set` the name reads back the new value and every other name reads back its old value |
| DeepLink.Resolve | App.tsx:63-85 | a non-empty `style` wins and selects the first catalog style with that id, or nothing when the id is unknown (without looking at `custom`); otherwise a non-empty prompt decoded from `custom` is imported, and only such a prompt is; a decode failure changes nothing |
| DeepLink.ShareStyleLink | App.tsx:234-239 | the copied link carries the style's id under `style` and keeps `custom` as it was |
| DeepLink.WithCustom | App.tsx:245 | setting `custom` makes it read back the encoded prompt and leaves what `style` reads unchanged |
| DeepLink.ShareCustomLink | App.tsx:241-248 | a link is copied iff the trimmed prompt is non-empty and every character is Latin-1; it carries the encoded prompt under `custom` and keeps `style` |
| DeepLink.StyleLinkRoundTrip | App.tsx:234-239 | opening a shared style link against the same catalog selects the shared style |
| DeepLink.CustomLinkRoundTrip | App.tsx:241-245 | opening a shared prompt link imports the prompt when the encoding round-trips and the page had no `style` parameter |
| DeepLink.CustomLinkShadowedByStyle | App.tsx:68-74 | a prompt shared from a page opened by a style link keeps that `style`, so the recipient gets the style, not the prompt |
| App.Initial | App.tsx:10-37 | at mount: welcome step, no frame, selection, result, video or error, empty custom text, description and style name, blur, naming dialog, original view and favourites filter off, intensity 100, the loaded lists, and neither a transformation nor a video call can be made |
| App.Reset | App.tsx:114-132 | from any session, reset yields the mount-time session for the same favourites and saved styles |
| App.Start | App.tsx:277 | the start button moves to the camera step and changes nothing else |
| App.Back | App.tsx:481 | with a video: drop it and stay on the result image; without one: drop the result image and go back to review; nothing else changes |
| App.CaptureBegin | App.tsx:135-136 | capture stores the frame without analysis, moves to review, clears the error, marks analysis running, and changes nothing else |
| App.CaptureSettle | App.tsx:137-148 | a successful analysis is attached to the session's frame and becomes the editable description; a failure sets "modern clothes"; the analysing flag is cleared and nothing else changes |
| App.Capture | App.tsx:134-149 | after capture and analysis: review step, no error, the new frame, description from the analysis or "modern clothes", analysing cleared; nothing else changes |
| App.ActivePrompt | App.tsx:152-154 | a non-blank custom text is sent untrimmed after the instruction prefix; otherwise the selected style's prompt; nothing only when the text is blank and no style is selected |
| App.TransformCall | App.tsx:151-166 | a call is made iff there is a frame and the custom text is not blank or the selected style has a prompt; it sends the frame, the prefixed untrimmed custom text or else the style's prompt, the description or "modern clothes", and the blur flag |
| App.TransformBegin | App.tsx:156-158 | no call: nothing changes; a call: the loading step with no error, nothing else changes |
| App.TransformSettle | App.tsx:160-171 | success: result step with the image and full intensity, error untouched; failure: review step with the error, result image and intensity kept; nothing else changes |
| App.Transform | App.tsx:151-172 | no call: nothing changes; success: result step with the image, intensity 100 and no error; failure: review with "Transformation failed. Try again." and the previous result image and intensity kept; step, error, result image and intensity are the only fields that can change |
| App.RetryAfterFailure | App.tsx:169-171 | after a failed transformation, pressing Transform again sends exactly the same request |
| App.HasLongCustomText | App.tsx:344 | the save and share buttons show exactly when the trimmed text has more than three UTF-16 code units: more than three code points always suffice, fewer than two never do, and for text below U+10000 it is exactly more than three code points |
| App.IsReadyToTransform | App.tsx:250 | the button is enabled exactly when a style is selected or the trimmed text has more than three UTF-16 code units; in particular more than three code points suffice, and an enabled button with no selection has at least two code points of trimmed text |
| App.ReadyMeansCall | App.tsx:250 | when the Transform button is enabled and a frame exists, the handler's guard passes |
| App.GuardWeakerThanButton | App.tsx:152-156 | with a frame and no selection, any non-blank trimmed custom text of at most three UTF-16 code units passes the handler's guard but leaves the button disabled |
| App.AstralPairEnablesTransform | App.tsx:250 | any trimmed text of two code points above U+FFFF is four code units, enough to show the save and share buttons and to enable the transform button |
| App.TwoEmojiEnableTransform | App.tsx:250 | two emoji above U+FFFF, two code points but four code units, enable the button without a selection |
| App.AnimateCall | App.tsx:174-191 | a video call is made iff a result image is present; it sends that image and the selected style's name or "Custom Style" |
| App.AnimateBegin | App.tsx:184 | no call: nothing changes; a call: the loading step with no error, nothing else changes |
| App.AnimateSettle | App.tsx:187-196 | back on the result step with the result image kept: the video on success, the error on failure; nothing else changes |
| App.Animate | App.tsx:174-197 | no result image: nothing changes; success: result step with the video and no error; failure: result step with the video error and the old video; step, error and video are the only fields that can change |
| App.AnimateResume | App.tsx:184 | after the key check the handler enters the loading step with no error whatever session it finds, and changes nothing else |
| App.BackFromVideo | App.tsx:481 | Back right after a new video restores the image view the animation started from, minus its error |
| App.BackFromImage | App.tsx:481 | Back from a fresh result returns to review with every input kept, so Transform sends the same request again |
| App.SelectStyle | App.tsx:405 | picking a card selects its style, clears the custom text, and changes nothing else |
| App.EditCustomPrompt | App.tsx:339 | typing stores the text as typed; a non-blank text drops the selection, a blank one keeps it; nothing else changes |
| App.SaveCustomStyle | App.tsx:199-217 | with a blank name or blank custom text nothing changes; otherwise the style built for the clock reading (id `custom-` plus the reading, trimmed name and prompt, fixed description and icon) is appended and selected, the custom text and name are cleared, the dialog closes, and nothing else changes |
| App.SaveKeepsIdsUnique | App.tsx:203-211 | when the clock gives an id no saved style has, saving keeps catalog ids distinct |
| App.SavedPromptLosesPrefix | App.tsx:206 | after saving, the request carries the saved style's trimmed prompt instead of the prefixed custom text |
| App.DeleteStyle | App.tsx:219-226 | the saved styles and favourites are filtered by the id, so every other entry stays in its order with its multiplicity, the selection is cleared exactly when it had that id, and nothing else changes |
| App.ToggleFavoriteOf | App.tsx:228-232 | the heart flips the id's membership in the favourites and changes nothing else |
| App.SelectedId | App.tsx:404 | the grid's `selectedId` is the selected style's id when a style is selected and its id is non-empty, and null otherwise |
| App.ApplyLink | App.tsx:71-78 | a style link sets only the selection, a prompt link sets only the custom text, no link changes nothing |
| App.Boot | App.tsx:63-85 | after mount: welcome step without frame or result; a selected style is in the combined catalog with empty custom text; a custom text implies no selection; no link leaves the initial session |
| App.BackDuringKeyCheck | App.tsx:174-190 | Back pressed while the animate handler awaits the key check drops the result image, and the video then lands on a result step with no result image |
| App.LateAnalysisAfterReset | App.tsx:139-143 | an analysis resolving after a reset writes its description into the fresh session |
| Traces.ScreenOf | App.tsx:262-478 | nothing is drawn exactly on review without a frame or on result without a result image; the loading screen shows exactly on the transforming step |
| Traces.Enabled | App.tsx:277-512 | a control is available only on a drawn screen other than the loading screen |
| Traces.ConsistentScreen | App.tsx:283 | a consistent session always renders one of the welcome, camera, review and result screens |
| Traces.EnabledOnScreen | App.tsx:262 | a control that is on screen raises its event only from the step of that screen |
| Traces.HandleKeepsExclusive | App.tsx:339 | no handler lets a selection and a non-blank custom text coexist |
| Traces.HandleKeepsConsistent | App.tsx:134-197 | handlers run from their own screen keep the step in agreement with frame, result and video, with no call left pending |
| Traces.LoadingBlocksInput | App.tsx:421-476 | the loading screen offers no control, so no event can occur while a transformation or video call is pending |
| Traces.KeyCheckRaceStrands | App.tsx:174-190 | after Back during the key check and the video's arrival, nothing is drawn and no control is available |
| Traces.ApplyKeepsInv | App.tsx:281-283 | every event, applied when its control is available, keeps both invariants |
| Traces.RunKeepsInv | App.tsx:262-283 | every event trace keeps both invariants |
| Traces.LinkInv | App.tsx:68-80 | whichever link the start-up URL resolves to, the session after mount satisfies both invariants |
| Traces.Reachable | App.tsx:63-85 | from mount, for every start-up link and every event trace, the selection and a non-blank custom text exclude each other and a screen is always drawn |
| Traces.OnePromptSource | App.tsx:152-154 | with the invariant, a non-blank custom text is sent only when no style is selected, and a selected style's prompt is sent whenever a style is selected |
| Traces.DeleteCascades | App.tsx:219-226 | deleting a style through its card's delete control removes it from the favourites, the selection and every card |

## Left out

- The loading-message timer (App.tsx:95-107) and its cycling index are not modelled. The animate path sets the `transforming` step, so the timer always shows the image messages.
- Toasts and their timeouts are left out: they are presentation only.
- `localStorage` reads and writes are left out. `Initial` and `Boot` take the loaded favourites and saved styles as parameters.
- The clipboard, `navigator.share`, the download links and URL string building are left out as browser I/O. The share links are modelled as query-parameter lists.
- The `window.aistudio` key check in `handleAnimateLook` is a pause, not a call: its answer is not modelled. `App.Animate` treats the pause as atomic; `App.BackDuringKeyCheck` shows what happens when it is not.
- The camera component, the intensity slider's 0–100 bound (a browser range input) and all JSX/CSS rendering are left out.
- The `confirm()` dialog before deletion is left out: only a confirmed delete is an event.
- Traces.Enabled: the grid's pick, heart and delete events are allowed for any style or identifier while review is shown. This admits more traces than the grid offers, so the trace lemmas cover at least every real trace.
- Traces.Reachable: it assumes every call resolves before the next user event (`Capture`, `Transform` and `Animate` compose Begin and Settle), and that a successful transformation returns a non-empty image. For the transformation and the video call this ordering is forced, since the loading screen has no control (`Traces.LoadingBlocksInput`). It is not forced for the analysis, which runs while the review screen is up (`App.LateAnalysisAfterReset`), nor for the animate key check, which runs while the result screen is up (`App.BackDuringKeyCheck`, `Traces.KeyCheckRaceStrands`).
- Traces.HandleKeepsConsistent: it requires the handler to be raised from its own screen, which `Traces.EnabledOnScreen` supplies.
- App.SaveKeepsIdsUnique: it assumes the clock gives an identifier no saved style has. `handleSaveCustomStyle` does not check this.
- Catalog.BuiltInFacts: it states the identifiers and the custom flag of the presets, not their names, descriptions, prompts or icons, which are data copied verbatim into `Catalog.STYLE_PRESETS`.
- DeepLink.Resolve: a `prompt` field that is truthy but not a string is not modelled; the decoder yields a string or nothing.
- No handler checks whether the session moved on while it was waiting. Only two waits leave controls on screen: the analysis (`App.LateAnalysisAfterReset`) and the animate key check (`App.BackDuringKeyCheck`, which ends on a blank screen with no control, `Traces.KeyCheckRaceStrands`).

=== FILE: app.dfy ===
/** The session logic of the app's root component (App.tsx): the session
    record and the handlers that map (session, user event, gateway outcome)
    to the next session. Each awaited gateway call is split into the part
    that runs when the user acts (`...Begin`) and the part that runs when the
    call settles (`...Settle`); the composite applies both back to back. */
module App {
  import opened Wrappers
  import opened Text
  import opened Types
  import opened Catalog
  import opened Store
  import opened DeepLink

  /** Everything the root component keeps in hooks, except the loading
      message and the toast text: the main state record, the transient
      review/result fields, and the persisted favourites and saved styles. */
  datatype Session = Session(
    state: AppState,
    customPrompt: string,
    editableBaseDescription: string,
    isAnalyzing: bool,
    showOriginal: bool,
    intensity: int,
    blurBackground: bool,
    favorites: seq<string>,
    userStyles: seq<StylePreset>,
    showOnlyFavorites: bool,
    isNamingStyle: bool,
    newStyleName: string)

  const DEFAULT_DESCRIPTION: string := "modern clothes"
  const CUSTOM_PROMPT_PREFIX: string := "Change my outfit to: "
  const TRANSFORM_ERROR: string := "Transformation failed. Try again."
  const VIDEO_ERROR: string := "Video generation failed. Please use a paid API key."
  const FALLBACK_STYLE_NAME: string := "Custom Style"
  const FULL_INTENSITY: int := 100

  /** The main state record with every optional field absent. */
  const EMPTY_STATE: AppState := AppState(Welcome, None, None, None, None, None)

  /** The session as the component mounts, given the favourites and saved
      styles loaded from storage. */
  function Initial(favorites: seq<string>, userStyles: seq<StylePreset>): (r: Session)
    ensures r.state.step == Welcome && r.state.capturedImage == None && r.state.resultImage == None
    ensures r.state.selectedStyle == None && r.state.videoUrl == None && r.state.error == None
    ensures r.customPrompt == "" && !r.isAnalyzing && r.intensity == FULL_INTENSITY
    ensures r.favorites == favorites && r.userStyles == userStyles
    ensures r.editableBaseDescription == "" && r.newStyleName == ""
    ensures !r.blurBackground && !r.isNamingStyle && !r.showOriginal && !r.showOnlyFavorites
    ensures TransformCall(r).None? && AnimateCall(r).None?
  {
    Session(EMPTY_STATE, "", "", false, false, FULL_INTENSITY, false,
            favorites, userStyles, false, false, "")
  }

  // ---------------------------------------------------------------------
  // Navigation

  /** `reset`: rebuilds the main record and clears every transient field;
      the persisted lists survive. From any session it yields the mount-time
      session for the same lists. */
  function Reset(s: Session): (r: Session)
    ensures r == Initial(s.favorites, s.userStyles)
  {
    s.(state := AppState(Welcome, None, None, None, None, None),
       customPrompt := "",
       editableBaseDescription := "",
       isAnalyzing := false,
       showOriginal := false,
       showOnlyFavorites := false,
       intensity := 100,
       blurBackground := false,
       isNamingStyle := false,
       newStyleName := "")
  }

  /** The welcome screen's start button: go to the camera, nothing else
      changes. */
  function Start(s: Session): (r: Session)
    ensures r.state.step == Camera
    ensures r.(state := r.state.(step := s.state.step)) == s
  {
    s.(state := s.state.(step := Camera))
  }

  /** The result screen's back button. From a video it drops the video and
      stays on the result image; from an image it drops the image and
      returns to review. Nothing else changes. */
  function Back(s: Session): (r: Session)
    ensures r.state.videoUrl == None
    ensures Present(s.state.videoUrl) ==>
      r.state.step == Result && r.state.resultImage == s.state.resultImage
    ensures !Present(s.state.videoUrl) ==>
      r.state.step == Review && r.state.resultImage == None
    ensures r.(state := r.state.(step := s.state.step, resultImage := s.state.resultImage,
                                 videoUrl := s.state.videoUrl)) == s
  {
    var hasVideo := Present(s.state.videoUrl);
    s.(state := s.state.(videoUrl := None,
                         resultImage := if hasVideo then s.state.resultImage else None,
                         step := if hasVideo then Result else Review))
  }

  // ---------------------------------------------------------------------
  // Capture and analysis

  /** The synchronous part of `handleCapture`: store the frame, go to
      review, clear the error and mark analysis in progress. */
  function CaptureBegin(s: Session, dataUrl: string): (r: Session)
    ensures r.state.step == Review && r.state.error == None && r.isAnalyzing
    ensures r.state.capturedImage == Some(CapturedImage(dataUrl, None))
    ensures r.(state := r.state.(step := s.state.step, error := s.state.error,
                                 capturedImage := s.state.capturedImage),
               isAnalyzing := s.isAnalyzing) == s
  {
    s.(state := s.state.(capturedImage := Some(CapturedImage(dataUrl, None)), step := Review, error := None),
       isAnalyzing := true)
  }

  /** When the analysis call settles: on success the description is
      attached to whatever image the session holds by then and becomes the
      editable description; on failure the editable description falls back
      to "modern clothes" and no error is shown. The step never changes. */
  function CaptureSettle(s: Session, analysis: Outcome<string>): (r: Session)
    ensures r.state.step == s.state.step && r.state.error == s.state.error && !r.isAnalyzing
    ensures r.state.capturedImage.Some? <==> s.state.capturedImage.Some?
    ensures r.state.capturedImage.Some? ==> r.state.capturedImage.value.dataUrl == s.state.capturedImage.value.dataUrl
    ensures analysis.Ok? ==>
      (r.editableBaseDescription == analysis.value
       && (r.state.capturedImage.Some? ==> r.state.capturedImage.value.analysis == Some(analysis.value)))
    ensures analysis.Fail? ==>
      (r.editableBaseDescription == DEFAULT_DESCRIPTION
       && r.state.capturedImage == s.state.capturedImage)
    ensures r.(state := r.state.(capturedImage := s.state.capturedImage),
               editableBaseDescription := s.editableBaseDescription, isAnalyzing := s.isAnalyzing) == s
  {
    match analysis
    case Ok(a) =>
      s.(state := s.state.(capturedImage :=
           if s.state.capturedImage.Some? then Some(s.state.capturedImage.value.(analysis := Some(a))) else None),
         editableBaseDescription := a,
         isAnalyzing := false)
    case Fail =>
      s.(editableBaseDescription := DEFAULT_DESCRIPTION, isAnalyzing := false)
  }

  /** `handleCapture` when the analysis settles before anything else
      happens: review shows the new frame with no error; the editable
      description is the analysis, or "modern clothes" when it failed. */
  function Capture(s: Session, dataUrl: string, analysis: Outcome<string>): (r: Session)
    ensures r.state.step == Review && r.state.error == None && !r.isAnalyzing
    ensures r.state.capturedImage.Some? && r.state.capturedImage.value.dataUrl == dataUrl
    ensures analysis.Ok? ==>
      (r.state.capturedImage.value.analysis == Some(analysis.value)
       && r.editableBaseDescription == analysis.value)
    ensures analysis.Fail? ==>
      (r.state.capturedImage.value.analysis == None
       && r.editableBaseDescription == DEFAULT_DESCRIPTION)
    ensures r.state.selectedStyle == s.state.selectedStyle && r.customPrompt == s.customPrompt
      && r.state.resultImage == s.state.resultImage && r.state.videoUrl == s.state.videoUrl
      && r.favorites == s.favorites && r.userStyles == s.userStyles
    ensures r.(state := r.state.(step := s.state.step, error := s.state.error,
                                 capturedImage := s.state.capturedImage),
               editableBaseDescription := s.editableBaseDescription, isAnalyzing := s.isAnalyzing) == s
  {
    CaptureSettle(CaptureBegin(s, dataUrl), analysis)
  }

  // ---------------------------------------------------------------------
  // Transformation

  /** The prompt `handleTransform` computes: the instruction prefix plus the
      untrimmed custom text when the trimmed text is non-empty, otherwise the
      selected style's prompt, otherwise nothing. */
  function ActivePrompt(s: Session): (r: Option<string>)
    ensures r.None? <==> Trim(s.customPrompt) == "" && s.state.selectedStyle.None?
    ensures Trim(s.customPrompt) != "" ==>
      (r.Some? && |r.value| >= |CUSTOM_PROMPT_PREFIX|
       && r.value[..|CUSTOM_PROMPT_PREFIX|] == CUSTOM_PROMPT_PREFIX
       && r.value[|CUSTOM_PROMPT_PREFIX|..] == s.customPrompt)
    ensures Trim(s.customPrompt) == "" && s.state.selectedStyle.Some? ==>
      r == Some(s.state.selectedStyle.value.prompt)
  {
    if Trim(s.customPrompt) != "" then Some(CUSTOM_PROMPT_PREFIX + s.customPrompt)
    else if s.state.selectedStyle.Some? then Some(s.state.selectedStyle.value.prompt)
    else None
  }

  /** The arguments of the transformation call. */
  datatype TransformRequest = TransformRequest(
    image: string, prompt: string, baseDescription: string, blurBackground: bool)

  /** The call `handleTransform` issues, or `None` when its guard returns
      early: it needs a captured image and a non-empty active prompt. The
      custom text wins over the selected style whenever it is not blank; an
      empty editable description is replaced by "modern clothes". */
  function TransformCall(s: Session): (r: Option<TransformRequest>)
    ensures r.Some? <==>
      (s.state.capturedImage.Some?
       && (Trim(s.customPrompt) != "" || (s.state.selectedStyle.Some? && s.state.selectedStyle.value.prompt != "")))
    ensures r.Some? ==>
      (r.value.image == s.state.capturedImage.value.dataUrl
       && r.value.blurBackground == s.blurBackground)
    ensures r.Some? && Trim(s.customPrompt) != "" ==> r.value.prompt == CUSTOM_PROMPT_PREFIX + s.customPrompt
    ensures r.Some? && Trim(s.customPrompt) == "" ==> r.value.prompt == s.state.selectedStyle.value.prompt
    ensures r.Some? && s.editableBaseDescription != "" ==> r.value.baseDescription == s.editableBaseDescription
    ensures r.Some? && s.editableBaseDescription == "" ==> r.value.baseDescription == DEFAULT_DESCRIPTION
  {
    var active := ActivePrompt(s);
    if s.state.capturedImage.None? || active.None? || active.value == "" then None
    else Some(TransformRequest(
      s.state.capturedImage.value.dataUrl,
      active.value,
      if s.editableBaseDescription != "" then s.editableBaseDescription else DEFAULT_DESCRIPTION,
      s.blurBackground))
  }

  /** The synchronous part of `handleTransform`: a no-op when the guard
      returns early, otherwise enter the loading screen with no error. */
  function TransformBegin(s: Session): (r: Session)
    ensures TransformCall(s).None? ==> r == s
    ensures TransformCall(s).Some? ==> r.state.step == Transforming && r.state.error == None
    ensures r.(state := r.state.(step := s.state.step, error := s.state.error)) == s
  {
    if TransformCall(s).None? then s
    else s.(state := s.state.(step := Transforming, error := None))
  }

  /** When the transformation call settles: success shows the result at full
      intensity; failure returns to review with an error. */
  function TransformSettle(s: Session, result: Outcome<string>): (r: Session)
    ensures result.Ok? ==>
      (r.state.step == Result && r.state.resultImage == Some(result.value)
       && r.intensity == FULL_INTENSITY)
    ensures result.Ok? ==> r.state.error == s.state.error
    ensures result.Fail? ==> r.state.step == Review && r.state.error == Some(TRANSFORM_ERROR)
    ensures result.Fail? ==> r.state.resultImage == s.state.resultImage && r.intensity == s.intensity
    ensures r.state.capturedImage == s.state.capturedImage && r.state.selectedStyle == s.state.selectedStyle
      && r.customPrompt == s.customPrompt && r.editableBaseDescription == s.editableBaseDescription
      && r.blurBackground == s.blurBackground
    ensures r.(state := r.state.(step := s.state.step, error := s.state.error, resultImage := s.state.resultImage),
               intensity := s.intensity) == s
  {
    match result
    case Ok(img) => s.(state := s.state.(step := Result, resultImage := Some(img)), intensity := FULL_INTENSITY)
    case Fail => s.(state := s.state.(step := Review, error := Some(TRANSFORM_ERROR)))
  }

  /** `handleTransform` when the call settles before anything else happens.
      No call: nothing changes. Success: the result screen with the image,
      full intensity and no error. Failure: back on review with the error
      set. Either way the inputs (frame, selection, custom text, description,
      blur toggle) are kept. */
  function Transform(s: Session, result: Outcome<string>): (r: Session)
    ensures TransformCall(s).None? ==> r == s
    ensures TransformCall(s).Some? && result.Ok? ==>
      (r.state.step == Result
       && r.state.resultImage == Some(result.value) && r.intensity == FULL_INTENSITY && r.state.error == None)
    ensures TransformCall(s).Some? && result.Fail? ==>
      (r.state.step == Review
       && r.state.error == Some(TRANSFORM_ERROR)
       && r.state.resultImage == s.state.resultImage && r.intensity == s.intensity)
    ensures r.state.capturedImage == s.state.capturedImage && r.state.selectedStyle == s.state.selectedStyle
      && r.customPrompt == s.customPrompt && r.editableBaseDescription == s.editableBaseDescription
      && r.blurBackground == s.blurBackground && r.state.videoUrl == s.state.videoUrl
      && r.favorites == s.favorites && r.userStyles == s.userStyles
    ensures r.(state := r.state.(step := s.state.step, error := s.state.error, resultImage := s.state.resultImage),
               intensity := s.intensity) == s
  {
    if TransformCall(s).None? then s else TransformSettle(TransformBegin(s), result)
  }

  /** After a failed transformation, pressing Transform again sends exactly
      the same request. */
  lemma RetryAfterFailure(s: Session)
    ensures TransformCall(Transform(s, Fail)) == TransformCall(s)
  {
  }

  /** `customPrompt.trim().length > 3`: the condition for the save and share
      buttons, and half of `isReadyToTransform`. JavaScript counts UTF-16
      code units, so a code point above U+FFFF counts twice: more than
      three code points always suffice, two may. */
  function HasLongCustomText(s: Session): (b: bool)
    ensures b <==> Utf16Length(Trim(s.customPrompt)) > 3
    ensures |Trim(s.customPrompt)| > 3 ==> b
    ensures b ==> |Trim(s.customPrompt)| >= 2
    ensures (forall i :: 0 <= i < |Trim(s.customPrompt)| ==> Trim(s.customPrompt)[i] <= '\U{FFFF}') ==>
      (b <==> |Trim(s.customPrompt)| > 3)
  {
    Utf16Length(Trim(s.customPrompt)) > 3
  }

  /** `isReadyToTransform`: the button needs a selected style or more than
      three UTF-16 code units of trimmed custom text. Either way there is
      something to send. */
  function IsReadyToTransform(s: Session): (b: bool)
    ensures b <==> s.state.selectedStyle.Some? || Utf16Length(Trim(s.customPrompt)) > 3
    ensures s.state.selectedStyle.Some? ==> b
    ensures |Trim(s.customPrompt)| > 3 ==> b
    ensures b ==> s.state.selectedStyle.Some? || |Trim(s.customPrompt)| >= 2
  {
    s.state.selectedStyle.Some? || HasLongCustomText(s)
  }

  /** When the button is enabled on review, the handler's own guard passes
      too (styles with an empty prompt exist only in edited storage). */
  lemma ReadyMeansCall(s: Session)
    requires s.state.capturedImage.Some? && IsReadyToTransform(s)
    requires s.state.selectedStyle.Some? ==> s.state.selectedStyle.value.prompt != ""
    ensures TransformCall(s).Some?
  {
  }

  /** The handler's guard is weaker than the button's: with no selection,
      any non-blank custom text of at most three UTF-16 code units passes
      the handler while the button stays disabled. */
  lemma GuardWeakerThanButton(s: Session)
    requires s.state.capturedImage.Some? && s.state.selectedStyle.None?
    requires 1 <= Utf16Length(Trim(s.customPrompt)) <= 3
    ensures TransformCall(s).Some? && !IsReadyToTransform(s)
  {
  }

  /** Any two trimmed code points above U+FFFF are four UTF-16 code units,
      which is enough to enable the button with no style selected. */
  lemma AstralPairEnablesTransform(s: Session)
    requires |Trim(s.customPrompt)| == 2
    requires Trim(s.customPrompt)[0] > '\U{FFFF}' && Trim(s.customPrompt)[1] > '\U{FFFF}'
    ensures HasLongCustomText(s) && IsReadyToTransform(s)
  {
    var t := Trim(s.customPrompt);
    assert t == [t[0]] + [t[1]];
    Utf16LengthAppend([t[0]], [t[1]]);
  }

  /** Two dress-and-shoe emoji are two code points but four UTF-16 code
      units, which is enough to enable the button. */
  lemma TwoEmojiEnableTransform(s: Session)
    requires s.state.selectedStyle.None? && s.customPrompt == "\U{1F457}\U{1F460}"
    ensures |s.customPrompt| == 2 && IsReadyToTransform(s)
  {
    var t := s.customPrompt;
    assert !IsWhitespace(t[0]) && !IsWhitespace(t[|t| - 1]);
    assert TrimStart(t) == t;
    assert TrimEnd(t) == t;
    AstralPairEnablesTransform(s);
  }

  // ---------------------------------------------------------------------
  // Animation

  /** The arguments of the video call. */
  datatype AnimateRequest = AnimateRequest(image: string, styleName: string)

  /** The call `handleAnimateLook` issues, or `None` without a result image:
      the result image and the selected style's name, "Custom Style" when
      no style (or a nameless one) is selected. */
  function AnimateCall(s: Session): (r: Option<AnimateRequest>)
    ensures r.Some? <==> Present(s.state.resultImage)
    ensures r.Some? ==> r.value.image == s.state.resultImage.value
    ensures r.Some? && s.state.selectedStyle.Some? && s.state.selectedStyle.value.name != "" ==>
      r.value.styleName == s.state.selectedStyle.value.name
    ensures r.Some? && (s.state.selectedStyle.None? || s.state.selectedStyle.value.name == "") ==>
      r.value.styleName == FALLBACK_STYLE_NAME
  {
    if !Present(s.state.resultImage) then None
    else Some(AnimateRequest(
      s.state.resultImage.value,
      if s.state.selectedStyle.Some? && s.state.selectedStyle.value.name != ""
      then s.state.selectedStyle.value.name else FALLBACK_STYLE_NAME))
  }

  /** The part of `handleAnimateLook` after the key check: a no-op without a
      result image, otherwise the loading screen with no error. */
  function AnimateBegin(s: Session): (r: Session)
    ensures AnimateCall(s).None? ==> r == s
    ensures AnimateCall(s).Some? ==> r.state.step == Transforming && r.state.error == None
    ensures r.(state := r.state.(step := s.state.step, error := s.state.error)) == s
  {
    if AnimateCall(s).None? then s else AnimateResume(s)
  }

  /** The update `handleAnimateLook` makes once the key check returns. It
      does not look at the guard again: whatever session it finds enters
      the loading step with no error. */
  function AnimateResume(s: Session): (r: Session)
    ensures r.state.step == Transforming && r.state.error == None
    ensures r.(state := r.state.(step := s.state.step, error := s.state.error)) == s
  {
    s.(state := s.state.(step := Transforming, error := None))
  }

  /** When the video call settles: back on the result screen, with the video
      on success or the error on failure. */
  function AnimateSettle(s: Session, video: Outcome<string>): (r: Session)
    ensures r.state.step == Result && r.state.resultImage == s.state.resultImage
    ensures video.Ok? ==> r.state.videoUrl == Some(video.value) && r.state.error == s.state.error
    ensures video.Fail? ==> r.state.videoUrl == s.state.videoUrl && r.state.error == Some(VIDEO_ERROR)
    ensures r.(state := r.state.(step := s.state.step, error := s.state.error, videoUrl := s.state.videoUrl)) == s
  {
    match video
    case Ok(v) => s.(state := s.state.(step := Result, videoUrl := Some(v)))
    case Fail => s.(state := s.state.(step := Result, error := Some(VIDEO_ERROR)))
  }

  /** `handleAnimateLook` when the call settles before anything else
      happens. Without a result image nothing changes. Otherwise the session
      ends on the result screen with the result image preserved: with the
      video and no error on success, with an error and no new video on
      failure. */
  function Animate(s: Session, video: Outcome<string>): (r: Session)
    ensures AnimateCall(s).None? ==> r == s
    ensures AnimateCall(s).Some? ==> r.state.step == Result && r.state.resultImage == s.state.resultImage
    ensures AnimateCall(s).Some? && video.Ok? ==> r.state.videoUrl == Some(video.value) && r.state.error == None
    ensures AnimateCall(s).Some? && video.Fail? ==>
      r.state.videoUrl == s.state.videoUrl && r.state.error == Some(VIDEO_ERROR)
    ensures r.state.capturedImage == s.state.capturedImage && r.state.selectedStyle == s.state.selectedStyle
      && r.customPrompt == s.customPrompt && r.favorites == s.favorites && r.userStyles == s.userStyles
    ensures r.(state := r.state.(step := s.state.step, error := s.state.error, videoUrl := s.state.videoUrl)) == s
  {
    if AnimateCall(s).None? then s else AnimateSettle(AnimateBegin(s), video)
  }

  /** "Back" from a freshly generated video returns to the image view of the
      same result: the session the animation started from, minus its error. */
  lemma BackFromVideo(s: Session, v: string)
    requires s.state.step == Result && Present(s.state.resultImage) && s.state.videoUrl == None
    requires v != ""
    ensures Back(Animate(s, Ok(v))) == s.(state := s.state.(error := None))
  {
  }

  /** "Back" from a result image returns to review with every input kept,
      so pressing Transform again sends the request that produced it. */
  lemma BackFromImage(s: Session, img: string)
    requires TransformCall(s).Some? && !Present(s.state.videoUrl)
    ensures Back(Transform(s, Ok(img))).state.step == Review
    ensures TransformCall(Back(Transform(s, Ok(img)))) == TransformCall(s)
  {
  }

  // ---------------------------------------------------------------------
  // Selection, custom prompt and the style store

  /** A grid card was pressed: select its style and clear the custom text. */
  function SelectStyle(s: Session, st: StylePreset): (r: Session)
    ensures r.state.selectedStyle == Some(st) && r.customPrompt == ""
    ensures r.(state := s.state, customPrompt := s.customPrompt) == s
    ensures r.state.(selectedStyle := s.state.selectedStyle) == s.state
  {
    s.(state := s.state.(selectedStyle := Some(st)), customPrompt := "")
  }

  /** Typing in the custom prompt box: the text is stored as typed, and the
      selection is dropped once the text is not blank. */
  function EditCustomPrompt(s: Session, text: string): (r: Session)
    ensures r.customPrompt == text
    ensures Trim(text) != "" ==> r.state.selectedStyle == None
    ensures Trim(text) == "" ==> r.state.selectedStyle == s.state.selectedStyle
    ensures r.(state := s.state, customPrompt := s.customPrompt) == s
    ensures r.state.(selectedStyle := s.state.selectedStyle) == s.state
  {
    var r := s.(customPrompt := text);
    if Trim(text) != "" then r.(state := r.state.(selectedStyle := None)) else r
  }

  /** `handleSaveCustomStyle`: with a non-blank name and custom text, append
      a new custom style built from the trimmed name and text, select it,
      clear the custom text and close the naming dialog; otherwise nothing
      changes. */
  function SaveCustomStyle(s: Session, now: nat): (r: Session)
    ensures Trim(s.newStyleName) == "" || Trim(s.customPrompt) == "" ==> r == s
    ensures Trim(s.newStyleName) != "" && Trim(s.customPrompt) != "" ==>
      && |r.userStyles| == |s.userStyles| + 1
      && r.userStyles[..|s.userStyles|] == s.userStyles
      && r.state.selectedStyle == Some(r.userStyles[|s.userStyles|])
      && r.state.selectedStyle.value.isCustom
      && r.state.selectedStyle.value.name == Trim(s.newStyleName)
      && r.state.selectedStyle.value.prompt == Trim(s.customPrompt)
      && r.customPrompt == "" && !r.isNamingStyle && r.newStyleName == ""
      && r.favorites == s.favorites && r.state.step == s.state.step
    ensures Trim(s.newStyleName) != "" && Trim(s.customPrompt) != "" ==>
      r.userStyles == s.userStyles + [NewCustomStyle(s.newStyleName, s.customPrompt, now)]
    ensures r.(userStyles := s.userStyles, state := s.state, customPrompt := s.customPrompt,
               isNamingStyle := s.isNamingStyle, newStyleName := s.newStyleName) == s
    ensures r.state.(selectedStyle := s.state.selectedStyle) == s.state
  {
    if Trim(s.newStyleName) == "" || Trim(s.customPrompt) == "" then s
    else
      var st := NewCustomStyle(s.newStyleName, s.customPrompt, now);
      var styles := s.userStyles + [st];
      assert styles[..|s.userStyles|] == s.userStyles;
      s.(userStyles := styles,
         state := s.state.(selectedStyle := Some(st)),
         customPrompt := "",
         isNamingStyle := false,
         newStyleName := "")
  }

  /** Saving keeps catalog identifiers distinct when the clock reading gives
      an identifier no saved style has yet. */
  lemma SaveKeepsIdsUnique(s: Session, now: nat)
    requires UniqueIds(AllStyles(s.userStyles))
    requires forall u :: u in s.userStyles ==> u.id != CustomId(now)
    ensures UniqueIds(AllStyles(SaveCustomStyle(s, now).userStyles))
  {
    var r := SaveCustomStyle(s, now);
    if r != s {
      var st := NewCustomStyle(s.newStyleName, s.customPrompt, now);
      assert r.userStyles == s.userStyles + [st];
      SaveNewIdKeepsUnique(s.userStyles, st);
    }
  }

  /** After saving, the transformation request uses the saved style's
      trimmed prompt, without the "Change my outfit to: " prefix the same
      text carried while it was a custom prompt. */
  lemma SavedPromptLosesPrefix(s: Session, now: nat)
    requires Trim(s.newStyleName) != "" && Trim(s.customPrompt) != "" && s.state.capturedImage.Some?
    ensures TransformCall(s).value.prompt == CUSTOM_PROMPT_PREFIX + s.customPrompt
    ensures TransformCall(SaveCustomStyle(s, now)).Some?
    ensures TransformCall(SaveCustomStyle(s, now)).value.prompt == Trim(s.customPrompt)
  {
    assert Trim("") == "";
  }

  /** `handleDeleteStyle`: the style leaves the saved styles and the
      favourites, and the selection is cleared exactly when it had that
      identifier. */
  function DeleteStyle(s: Session, id: string): (r: Session)
    ensures r.userStyles == RemoveStyle(s.userStyles, id) && r.favorites == RemoveFavorite(s.favorites, id)
    ensures forall st :: st in r.userStyles <==> st in s.userStyles && st.id != id
    ensures id !in r.favorites
    ensures forall f :: f != id ==> (f in r.favorites <==> f in s.favorites)
    ensures r.state.selectedStyle.None? <==> s.state.selectedStyle.None? || s.state.selectedStyle.value.id == id
    ensures r.state.selectedStyle.Some? ==> r.state.selectedStyle == s.state.selectedStyle
    ensures r.state.(selectedStyle := s.state.selectedStyle) == s.state
    ensures r.customPrompt == s.customPrompt
    ensures r.(userStyles := s.userStyles, favorites := s.favorites, state := s.state) == s
  {
    var r := s.(userStyles := RemoveStyle(s.userStyles, id), favorites := RemoveFavorite(s.favorites, id));
    if s.state.selectedStyle.Some? && s.state.selectedStyle.value.id == id
    then r.(state := r.state.(selectedStyle := None))
    else r
  }

  /** The heart on a card: `toggleFavorite`. */
  function ToggleFavoriteOf(s: Session, id: string): (r: Session)
    ensures id in r.favorites <==> id !in s.favorites
    ensures forall f :: f != id ==> (f in r.favorites <==> f in s.favorites)
    ensures r.(favorites := s.favorites) == s
  {
    s.(favorites := ToggleFavorite(s.favorites, id))
  }

  /** `state.selectedStyle?.id || null`, the grid's `selectedId`. */
  function SelectedId(s: Session): (r: Option<string>)
    ensures r.Some? <==> s.state.selectedStyle.Some? && s.state.selectedStyle.value.id != ""
    ensures r.Some? ==> r.value == s.state.selectedStyle.value.id
  {
    if s.state.selectedStyle.Some? && s.state.selectedStyle.value.id != ""
    then Some(s.state.selectedStyle.value.id) else None
  }

  // ---------------------------------------------------------------------
  // Start-up deep link

  /** Applies the deep-link effect: select the shared style, or put the
      shared text in the custom prompt box. */
  function ApplyLink(s: Session, link: Link): (r: Session)
    ensures link.SelectShared? ==> r.state.selectedStyle == Some(link.style) && r.customPrompt == s.customPrompt
    ensures link.ImportPrompt? ==> r.customPrompt == link.prompt && r.state.selectedStyle == s.state.selectedStyle
    ensures link.NoLink? ==> r == s
    ensures r.(state := s.state, customPrompt := s.customPrompt) == s
    ensures r.state.(selectedStyle := s.state.selectedStyle) == s.state
  {
    match link
    case SelectShared(st) => s.(state := s.state.(selectedStyle := Some(st)))
    case ImportPrompt(p) => s.(customPrompt := p)
    case NoLink => s
  }

  /** The session after mounting: the initial session with the start-up URL
      applied. A `style` link selects a catalog style, a `custom` link fills
      the custom prompt box, and an unknown identifier or an undecodable
      payload leaves the initial session. */
  function Boot(favorites: seq<string>, userStyles: seq<StylePreset>, ps: Params, decode: string -> Decoded)
    : (r: Session)
    ensures r.state.step == Welcome && r.state.capturedImage == None && r.state.resultImage == None
    ensures r.state.selectedStyle.Some? ==>
      (r.state.selectedStyle.value in AllStyles(userStyles)
       && r.customPrompt == "")
    ensures r.customPrompt != "" ==> r.state.selectedStyle == None
    ensures Resolve(ps, AllStyles(userStyles), decode).NoLink? ==> r == Initial(favorites, userStyles)
  {
    ApplyLink(Initial(favorites, userStyles), Resolve(ps, AllStyles(userStyles), decode))
  }

  // ---------------------------------------------------------------------
  // Calls that settle after the session moved on

  /** `handleAnimateLook` checks for a result image and then awaits the key
      check while the result screen and its back button are still up; the
      loading step is set only afterwards, without checking again, and the
      video call uses the image read before the await. Back pressed during
      the key check drops the result image, so the video arrives on a result
      step with no result image. */
  lemma BackDuringKeyCheck(s: Session, v: string)
    requires s.state.step == Result && Present(s.state.resultImage) && !Present(s.state.videoUrl)
    ensures AnimateCall(s).Some?
    ensures var r := AnimateSettle(AnimateResume(Back(s)), Ok(v));
      r.state.step == Result && r.state.resultImage == None && r.state.videoUrl == Some(v)
  {
  }

  /** Nothing checks that a pending analysis still belongs to the current
      session. The review screen, with its back button, stays up while the
      analysis runs; an analysis that settles after that reset writes its
      description into the fresh session's editable description. */
  lemma LateAnalysisAfterReset(s: Session, dataUrl: string, a: string)
    requires a != ""
    ensures var r := CaptureSettle(Reset(CaptureBegin(s, dataUrl)), Ok(a));
      r.state.step == Welcome && r.editableBaseDescription == a
      && r != Initial(s.favorites, s.userStyles)
  {
  }
}

=== FILE: catalog.dfy ===
/** The built-in style catalog (constants.tsx) and look-up by identifier. */
module Catalog {
  import opened Wrappers
  import opened Types

  /** The six built-in presets, in display order. */
  const STYLE_PRESETS: seq<StylePreset> := [
    StylePreset("cyberpunk", "Cyberpunk", "Neon-infused futuristic streetwear",
      "Change my outfit to a high-fashion cyberpunk streetwear look with neon accents, tech-wear materials, and glowing futuristic details.",
      "\U{1F680}", false),
    StylePreset("formal", "Executive", "Sharp tailored business attire",
      "Change my outfit to a perfectly tailored, expensive-looking charcoal grey business suit with a crisp white shirt and silk tie.",
      "\U{1F4BC}", false),
    StylePreset("bohemian", "Boho Chic", "Flowy, artistic, and relaxed",
      "Change my outfit to a stylish bohemian look with flowy fabrics, earthy tones, layered accessories, and artistic patterns.",
      "\U{1F3A8}", false),
    StylePreset("regal", "Royal Gala", "Elegant evening formal wear",
      "Change my outfit to a breathtaking royal gala evening gown/tuxedo with gold embroidery and premium velvet textures.",
      "\U{1F451}", false),
    StylePreset("sporty", "Athleisure", "Premium performance gear",
      "Change my outfit to high-end designer athletic wear with modern breathable fabrics and sleek performance aesthetics.",
      "\U{1F3C3}", false),
    StylePreset("steampunk", "Steampunk", "Victorian industrial fantasy",
      "Change my outfit to an elaborate steampunk ensemble with leather corsetry/vests, brass gears, and Victorian industrial elements.",
      "\U{2699}\U{FE0F}", false)
  ]

  /** The prefix of every identifier the app generates for a saved style. */
  const CUSTOM_ID_PREFIX: string := "custom-"

  /** The combined catalog the grid and deep links work on: built-ins first,
      then the user's saved styles. */
  function AllStyles(userStyles: seq<StylePreset>): (r: seq<StylePreset>)
    ensures |r| == |STYLE_PRESETS| + |userStyles|
    ensures r[..|STYLE_PRESETS|] == STYLE_PRESETS && r[|STYLE_PRESETS|..] == userStyles
  {
    STYLE_PRESETS + userStyles
  }

  /** Index of the first style with identifier `id`, or -1 (`findIndex`). */
  function FindIndex(styles: seq<StylePreset>, id: string): (k: int)
    ensures -1 <= k < |styles|
    ensures k == -1 <==> forall j :: 0 <= j < |styles| ==> styles[j].id != id
    ensures 0 <= k ==> styles[k].id == id && forall j :: 0 <= j < k ==> styles[j].id != id
    decreases |styles|
  {
    if |styles| == 0 then -1
    else if styles[0].id == id then 0
    else
      var k := FindIndex(styles[1..], id);
      if k == -1 then -1 else k + 1
  }

  /** `styles.find(s => s.id === id)`: the first style carrying `id`. */
  function FindById(styles: seq<StylePreset>, id: string): (r: Option<StylePreset>)
    ensures r.None? <==> forall st :: st in styles ==> st.id != id
    ensures r.Some? ==> r.value in styles && r.value.id == id
    ensures r.Some? ==> exists k :: FirstWithId(styles, id, k) && styles[k] == r.value
  {
    var k := FindIndex(styles, id);
    if k < 0 then None
    else
      assert FirstWithId(styles, id, k);
      Some(styles[k])
  }

  /** Position `k` holds the first style carrying `id`. */
  predicate FirstWithId(styles: seq<StylePreset>, id: string, k: int) {
    0 <= k < |styles| && styles[k].id == id && forall j :: 0 <= j < k ==> styles[j].id != id
  }

  /** With distinct identifiers, looking a member up by its own identifier
      finds that very member. */
  lemma FindByOwnId(styles: seq<StylePreset>, st: StylePreset)
    requires UniqueIds(styles)
    requires st in styles
    ensures FindById(styles, st.id) == Some(st)
  {
    var i :| 0 <= i < |styles| && styles[i] == st;
    var k := FindIndex(styles, st.id);
    assert k == i;
  }

  /** The built-in identifiers, in catalog order. */
  const BUILT_IN_IDS: seq<string> := ["cyberpunk", "formal", "bohemian", "regal", "sporty", "steampunk"]

  /** The built-in presets are not custom and carry non-empty
      identifiers, namely those of `BUILT_IN_IDS` in order. */
  lemma BuiltInFacts()
    ensures |STYLE_PRESETS| == |BUILT_IN_IDS|
    ensures forall i :: 0 <= i < |STYLE_PRESETS| ==> STYLE_PRESETS[i].id == BUILT_IN_IDS[i]
    ensures forall st :: st in STYLE_PRESETS ==> !st.isCustom && st.id != "" && st.id in BUILT_IN_IDS
  {
    assert forall i :: 0 <= i < 6 ==> BUILT_IN_IDS[i] in BUILT_IN_IDS;
  }

  /** The built-in identifiers are pairwise distinct. */
  lemma BuiltInIdsUnique()
    ensures UniqueIds(STYLE_PRESETS)
  {
    BuiltInFacts();
    BuiltInIdsDistinct();
  }

  lemma BuiltInIdsDistinct()
    ensures forall i, j :: 0 <= i < j < |BUILT_IN_IDS| ==> BUILT_IN_IDS[i] != BUILT_IN_IDS[j]
  {
    forall i, j | 0 <= i < j < |BUILT_IN_IDS|
      ensures BUILT_IN_IDS[i] != BUILT_IN_IDS[j]
    {
      var a, b := BUILT_IN_IDS[i], BUILT_IN_IDS[j];
      assert |a| != |b| || a[0] != b[0];
    }
  }

  /** `id` starts with the prefix of generated identifiers. */
  predicate HasCustomPrefix(id: string) {
    |CUSTOM_ID_PREFIX| <= |id| && id[..|CUSTOM_ID_PREFIX|] == CUSTOM_ID_PREFIX
  }

  /** No built-in identifier looks like a generated one, so a saved style can
      never take a built-in's identifier. */
  lemma CustomIdNotBuiltIn(id: string)
    requires HasCustomPrefix(id)
    ensures id !in BUILT_IN_IDS
  {
    assert id[..|CUSTOM_ID_PREFIX|][0] == id[0] && id[..|CUSTOM_ID_PREFIX|][1] == id[1];
    forall i | 0 <= i < |BUILT_IN_IDS|
      ensures BUILT_IN_IDS[i] != id
    {
      var b := BUILT_IN_IDS[i];
      if |b| >= |CUSTOM_ID_PREFIX| {
        assert b[0] != 'c' || b[1] != 'u';
      }
    }
  }
}

=== FILE: deeplink.dfy ===
/** Deep links (App.tsx): reading `style` / `custom` query parameters once at
    start-up, and building the share links that carry them. */
module DeepLink {
  import opened Wrappers
  import opened Text
  import opened Types
  import opened Catalog

  /** A URL's query string as `URLSearchParams` holds it: ordered name/value
      pairs, names may repeat. */
  type Params = seq<(string, string)>

  /** `params.get(name)`: the value of the first pair with that name. */
  function Get(ps: Params, name: string): (r: Option<string>)
    ensures r.None? <==> forall k :: 0 <= k < |ps| ==> ps[k].0 != name
    ensures r.Some? ==> exists k :: 0 <= k < |ps| && ps[k] == (name, r.value) && FirstNamed(ps, name, k)
    decreases |ps|
  {
    if |ps| == 0 then None
    else if ps[0].0 == name then
      assert ps[0] == (name, ps[0].1) && FirstNamed(ps, name, 0);
      Some(ps[0].1)
    else
      var r := Get(ps[1..], name);
      if r.Some? then
        var k :| 0 <= k < |ps| - 1 && ps[1..][k] == (name, r.value) && FirstNamed(ps[1..], name, k);
        assert ps[k + 1] == (name, r.value) && FirstNamed(ps, name, k + 1);
        r
      else r
  }

  /** Pair `k` is the first pair named `name`. */
  predicate FirstNamed(ps: Params, name: string, k: int) {
    0 <= k < |ps| && ps[k].0 == name && forall j :: 0 <= j < k ==> ps[j].0 != name
  }

  /** `ps` without any pair named `name`. */
  function Drop(ps: Params, name: string): (r: Params)
    ensures forall k :: 0 <= k < |r| ==> r[k].0 != name
    ensures forall n :: n != name ==> Get(r, n) == Get(ps, n)
    decreases |ps|
  {
    if |ps| == 0 then []
    else if ps[0].0 == name then Drop(ps[1..], name)
    else [ps[0]] + Drop(ps[1..], name)
  }

  /** `params.set(name, value)`: the first pair with that name gets the new
      value and later pairs with that name are removed; without such a pair
      one is appended. Afterwards `name` reads back `value` and every other
      name reads back what it did before. */
  function Set(ps: Params, name: string, value: string): (r: Params)
    ensures Get(r, name) == Some(value)
    ensures forall n :: n != name ==> Get(r, n) == Get(ps, n)
    decreases |ps|
  {
    if |ps| == 0 then [(name, value)]
    else if ps[0].0 == name then [(name, value)] + Drop(ps[1..], name)
    else [ps[0]] + Set(ps[1..], name, value)
  }

  /** What `JSON.parse(atob(text))` yields for the `custom` parameter: it
      throws (`Malformed`), or it yields an object whose `prompt` field is a
      string or missing. */
  datatype Decoded = Malformed | Parsed(prompt: Option<string>)

  /** The state change a start-up URL asks for. */
  datatype Link = SelectShared(style: StylePreset) | ImportPrompt(prompt: string) | NoLink

  /** The start-up deep-link effect. A non-empty `style` parameter takes
      precedence: it selects the first catalog style with that identifier,
      and an unknown identifier is ignored without looking at `custom`.
      Otherwise a non-empty `custom` parameter is decoded; a non-empty
      `prompt` in it is imported and anything else changes nothing. */
  function Resolve(ps: Params, allStyles: seq<StylePreset>, decode: string -> Decoded): (r: Link)
    ensures r.SelectShared? ==>
      (Present(Get(ps, "style")) && r.style in allStyles && r.style.id == Get(ps, "style").value)
    ensures r.SelectShared? ==> exists k :: FirstWithId(allStyles, r.style.id, k) && allStyles[k] == r.style
    ensures Present(Get(ps, "style")) ==> !r.ImportPrompt?
    ensures Present(Get(ps, "style")) && r.NoLink? ==>
      forall st :: st in allStyles ==> st.id != Get(ps, "style").value
    ensures r.ImportPrompt? ==>
      (Present(Get(ps, "custom")) && decode(Get(ps, "custom").value) == Parsed(Some(r.prompt)) && r.prompt != "")
    ensures (!Present(Get(ps, "style")) && Present(Get(ps, "custom"))
             && decode(Get(ps, "custom").value).Malformed?) ==> r.NoLink?
    ensures (!Present(Get(ps, "style")) && Present(Get(ps, "custom"))
             && decode(Get(ps, "custom").value).Parsed? && Present(decode(Get(ps, "custom").value).prompt))
            ==> r == ImportPrompt(decode(Get(ps, "custom").value).prompt.value)
  {
    var sharedStyleId := Get(ps, "style");
    var customEncoded := Get(ps, "custom");
    if Present(sharedStyleId) then
      match FindById(allStyles, sharedStyleId.value)
      case Some(found) => SelectShared(found)
      case None => NoLink
    else if Present(customEncoded) then
      match decode(customEncoded.value)
      case Parsed(Some(p)) => if p != "" then ImportPrompt(p) else NoLink
      case _ => NoLink
    else NoLink
  }

  /** The query string `shareStyle` copies: the current one with `style` set
      to the style's identifier. */
  function ShareStyleLink(ps: Params, st: StylePreset): (r: Params)
    ensures Get(r, "style") == Some(st.id)
    ensures Get(r, "custom") == Get(ps, "custom")
  {
    Set(ps, "style", st.id)
  }

  /** The query string `shareCustomStylePrompt` copies, with
      `btoa(JSON.stringify({prompt}))` as `encode` for the text `btoa`
      accepts. Nothing is copied for a blank prompt (the handler returns)
      or for a prompt with a character above U+00FF (`btoa` throws). */
  function ShareCustomLink(ps: Params, customPrompt: string, encode: string -> string): (r: Option<Params>)
    ensures r.Some? <==> Trim(customPrompt) != "" && IsLatin1(customPrompt)
    ensures r.Some? ==>
      (Get(r.value, "custom") == Some(encode(customPrompt)) && Get(r.value, "style") == Get(ps, "style"))
  {
    if Trim(customPrompt) == "" then None
    else if !IsLatin1(customPrompt) then None
    else Some(WithCustom(ps, encode(customPrompt)))
  }

  /** The current query string with `custom` set to `encoded`. */
  function WithCustom(ps: Params, encoded: string): (r: Params)
    ensures Get(r, "custom") == Some(encoded)
    ensures Get(r, "style") == Get(ps, "style")
  {
    assert "style"[0] != "custom"[0];
    Set(ps, "custom", encoded)
  }

  /** A style link opened against the same catalog selects the shared style,
      whatever else the URL carries. */
  lemma StyleLinkRoundTrip(ps: Params, st: StylePreset, allStyles: seq<StylePreset>, decode: string -> Decoded)
    requires UniqueIds(allStyles) && st in allStyles && st.id != ""
    ensures Resolve(ShareStyleLink(ps, st), allStyles, decode) == SelectShared(st)
  {
    FindByOwnId(allStyles, st);
  }

  /** A custom-prompt link imports the shared prompt, provided the encoding
      round-trips and the page it was shared from had no `style` parameter. */
  lemma CustomLinkRoundTrip(ps: Params, p: string, encode: string -> string, decode: string -> Decoded,
                            allStyles: seq<StylePreset>)
    requires ShareCustomLink(ps, p, encode).Some?
    requires decode(encode(p)) == Parsed(Some(p))
    requires encode(p) != ""
    requires !Present(Get(ps, "style"))
    ensures Resolve(ShareCustomLink(ps, p, encode).value, allStyles, decode) == ImportPrompt(p)
  {
    assert Trim(p) != "";
  }

  /** Sharing a custom prompt from a page opened through a style link keeps
      that `style` parameter, and the recipient gets the style instead of
      the prompt. */
  lemma CustomLinkShadowedByStyle(ps: Params, p: string, encode: string -> string, decode: string -> Decoded,
                                  st: StylePreset, allStyles: seq<StylePreset>)
    requires ShareCustomLink(ps, p, encode).Some?
    requires UniqueIds(allStyles) && st in allStyles && Get(ps, "style") == Some(st.id) && st.id != ""
    ensures Resolve(ShareCustomLink(ps, p, encode).value, allStyles, decode) == SelectShared(st)
  {
    FindByOwnId(allStyles, st);
  }
}

=== FILE: grid.dfy ===
/** The style grid (components/StyleGrid.tsx): which styles it shows, the
    empty state, and the flags and callback arguments of each card. */
module StyleGrid {
  import opened Wrappers
  import opened Seqs
  import opened Types
  import opened Catalog
  import Store

  /** One rendered card: the style it shows, its favourite and selected
      highlighting, and the arguments its favourite, share and delete
      controls hand to the parent's callbacks (no delete control: `None`). */
  datatype Card = Card(
    style: StylePreset,
    isFav: bool,
    isSelected: bool,
    favoriteTarget: string,
    shareTarget: StylePreset,
    deleteTarget: Option<string>)

  /** What the grid renders: the "No favorites" placeholder or the cards. */
  datatype GridView = NoFavorites | Cards(cards: seq<Card>)

  /** The test `s => favorites.includes(s.id)`. */
  function InFavorites(favorites: seq<string>): StylePreset -> bool {
    (st: StylePreset) => st.id in favorites
  }

  /** `filteredStyles`: every style, or only the favourite ones in catalog
      order. */
  function FilteredStyles(styles: seq<StylePreset>, favorites: seq<string>, showOnlyFavorites: bool)
    : (r: seq<StylePreset>)
    ensures !showOnlyFavorites ==> r == styles
    ensures showOnlyFavorites ==> forall st :: st in r <==> st in styles && st.id in favorites
    ensures IsSubsequence(r, styles)
  {
    if showOnlyFavorites then Filter(styles, InFavorites(favorites))
    else
      FilterAll(styles, (st: StylePreset) => true);
      styles
  }

  /** The favourites view keeps every favourite style as many times as it
      occurs in `styles` and drops the rest. */
  lemma FilteredStylesCount(styles: seq<StylePreset>, favorites: seq<string>, showOnlyFavorites: bool)
    ensures forall st :: multiset(FilteredStyles(styles, favorites, showOnlyFavorites))[st] ==
                         if !showOnlyFavorites || st.id in favorites then multiset(styles)[st] else 0
  {
    if showOnlyFavorites {
      FilterCount(styles, InFavorites(favorites));
    }
  }

  /** The card the grid draws for `style`. */
  function CardFor(style: StylePreset, selectedId: Option<string>, favorites: seq<string>): (c: Card)
    ensures c.style == style && c.shareTarget == style && c.favoriteTarget == style.id
    ensures c.isFav <==> style.id in favorites
    ensures c.isSelected <==> selectedId == Some(style.id)
    ensures c.deleteTarget.Some? <==> style.isCustom
    ensures c.deleteTarget.Some? ==> c.deleteTarget.value == style.id
  {
    Card(style,
         style.id in favorites,
         selectedId == Some(style.id),
         style.id,
         style,
         if style.isCustom then Some(style.id) else None)
  }

  /** The grid for the given props. The placeholder appears exactly when
      only favourites are requested and no style is a favourite; otherwise
      there is one card per shown style, in order, marked favourite iff its
      identifier is in `favorites`, selected iff it equals `selectedId`,
      and deletable iff the style is custom. */
  function Render(styles: seq<StylePreset>, selectedId: Option<string>, favorites: seq<string>,
                  showOnlyFavorites: bool): (v: GridView)
    ensures v.NoFavorites? <==> showOnlyFavorites && forall st :: st in styles ==> st.id !in favorites
    ensures v.Cards? ==> var shown := FilteredStyles(styles, favorites, showOnlyFavorites);
      |v.cards| == |shown| && forall k :: 0 <= k < |v.cards| ==> v.cards[k].style == shown[k]
    ensures v.Cards? ==> forall c :: c in v.cards ==>
      && (c.isFav <==> c.style.id in favorites)
      && (c.isSelected <==> selectedId == Some(c.style.id))
      && c.favoriteTarget == c.style.id
      && c.shareTarget == c.style
      && (c.deleteTarget.Some? <==> c.style.isCustom)
      && (c.deleteTarget.Some? ==> c.deleteTarget.value == c.style.id)
  {
    var shown := FilteredStyles(styles, favorites, showOnlyFavorites);
    if showOnlyFavorites && |shown| == 0 then
      assert forall st :: st in styles ==> st.id !in favorites by {
        forall st | st in styles
          ensures st.id !in favorites
        {
          assert st !in shown;
        }
      }
      NoFavorites
    else
      var cards := seq(|shown|, k requires 0 <= k < |shown| => CardFor(shown[k], selectedId, favorites));
      assert showOnlyFavorites ==> shown[0] in shown;
      Cards(cards)
  }

  /** With distinct identifiers at most one card is highlighted as
      selected. */
  lemma AtMostOneSelected(styles: seq<StylePreset>, selectedId: Option<string>, favorites: seq<string>,
                          showOnlyFavorites: bool, i: int, j: int)
    requires UniqueIds(styles)
    requires Render(styles, selectedId, favorites, showOnlyFavorites).Cards?
    requires var cards := Render(styles, selectedId, favorites, showOnlyFavorites).cards;
      0 <= i < |cards| && 0 <= j < |cards| && cards[i].isSelected && cards[j].isSelected
    ensures i == j
  {
    var cards := Render(styles, selectedId, favorites, showOnlyFavorites).cards;
    var shown := FilteredStyles(styles, favorites, showOnlyFavorites);
    assert cards[i] in cards && cards[j] in cards;
    assert cards[i].style == shown[i] && cards[j].style == shown[j];
    assert shown[i].id == shown[j].id;
    if !showOnlyFavorites {
      assert shown == styles;
    } else {
      FilterUnique(styles, favorites);
    }
  }

  /** Keeping only the favourites keeps identifiers distinct. */
  lemma {:induction false} FilterUnique(styles: seq<StylePreset>, favorites: seq<string>)
    requires UniqueIds(styles)
    ensures UniqueIds(Filter(styles, InFavorites(favorites)))
    decreases |styles|
  {
    if |styles| > 0 {
      var tail := styles[1..];
      assert UniqueIds(tail) by {
        forall i, j | 0 <= i < j < |tail|
          ensures tail[i].id != tail[j].id
        {
          assert tail[i] == styles[i + 1] && tail[j] == styles[j + 1];
        }
      }
      FilterUnique(tail, favorites);
      var rest := Filter(tail, InFavorites(favorites));
      if InFavorites(favorites)(styles[0]) {
        var r := [styles[0]] + rest;
        forall i, j | 0 <= i < j < |r|
          ensures r[i].id != r[j].id
        {
          if i == 0 {
            assert r[j] in tail;
          } else {
            assert r[i] == rest[i - 1] && r[j] == rest[j - 1];
          }
        }
      }
    }
  }

  /** In the full grid over the combined catalog, the six built-in cards come
      first and none of them offers a delete control. */
  lemma BuiltInsNotDeletable(userStyles: seq<StylePreset>, selectedId: Option<string>, favorites: seq<string>)
    ensures Render(AllStyles(userStyles), selectedId, favorites, false).Cards?
    ensures var cards := Render(AllStyles(userStyles), selectedId, favorites, false).cards;
      |cards| >= |STYLE_PRESETS| &&
      forall k :: 0 <= k < |STYLE_PRESETS| ==> cards[k].style == STYLE_PRESETS[k] && cards[k].deleteTarget.None?
  {
    BuiltInFacts();
    var cards := Render(AllStyles(userStyles), selectedId, favorites, false).cards;
    forall k | 0 <= k < |STYLE_PRESETS|
      ensures cards[k].style == STYLE_PRESETS[k] && cards[k].deleteTarget.None?
    {
      assert cards[k].style == AllStyles(userStyles)[k];
      assert STYLE_PRESETS[k] in STYLE_PRESETS;
      assert cards[k] in cards;
    }
  }

  /** Pressing a card's heart and re-rendering flips that card's favourite
      mark and leaves every card with another identifier as it was. */
  lemma ToggleFlipsCard(styles: seq<StylePreset>, selectedId: Option<string>, favorites: seq<string>, k: int)
    requires 0 <= k < |styles|
    ensures var before := Render(styles, selectedId, favorites, false);
      var after := Render(styles, selectedId, Store.ToggleFavorite(favorites, before.cards[k].favoriteTarget), false);
      && before.Cards? && after.Cards? && |after.cards| == |before.cards|
      && after.cards[k].isFav == !before.cards[k].isFav
      && forall m :: 0 <= m < |before.cards| && before.cards[m].style.id != before.cards[k].style.id ==>
           after.cards[m] == before.cards[m]
  {
    var before := Render(styles, selectedId, favorites, false);
    var id := before.cards[k].favoriteTarget;
    var favs' := Store.ToggleFavorite(favorites, id);
    var after := Render(styles, selectedId, favs', false);
    assert |before.cards| == |styles| && |after.cards| == |styles|;
    forall m | 0 <= m < |before.cards|
      ensures before.cards[m].style == styles[m] && after.cards[m].style == styles[m]
      ensures before.cards[m] in before.cards && after.cards[m] in after.cards
    {
      assert before.cards[m].style == styles[m];
      assert after.cards[m].style == styles[m];
    }
  }

  /** A shown card's style comes from the props' list. */
  lemma CardFromStyles(styles: seq<StylePreset>, selectedId: Option<string>, favorites: seq<string>,
                       showOnlyFavorites: bool, k: int)
    requires var g := Render(styles, selectedId, favorites, showOnlyFavorites);
      g.Cards? && 0 <= k < |g.cards|
    ensures Render(styles, selectedId, favorites, showOnlyFavorites).cards[k].style in styles
  {
    var cards := Render(styles, selectedId, favorites, showOnlyFavorites).cards;
    var shown := FilteredStyles(styles, favorites, showOnlyFavorites);
    assert cards[k].style == shown[k];
    assert shown[k] in shown;
  }

  /** Over the combined catalog with distinct identifiers, a card that
      offers deletion carries an identifier no built-in preset has. */
  lemma DeletableNotBuiltIn(userStyles: seq<StylePreset>, selectedId: Option<string>, favorites: seq<string>,
                            showOnlyFavorites: bool, k: int)
    requires UniqueIds(AllStyles(userStyles))
    requires var g := Render(AllStyles(userStyles), selectedId, favorites, showOnlyFavorites);
      g.Cards? && 0 <= k < |g.cards| && g.cards[k].deleteTarget.Some?
    ensures Render(AllStyles(userStyles), selectedId, favorites, showOnlyFavorites).cards[k].deleteTarget.value
      !in BUILT_IN_IDS
  {
    var all := AllStyles(userStyles);
    var c := Render(all, selectedId, favorites, showOnlyFavorites).cards[k];
    CardFromStyles(all, selectedId, favorites, showOnlyFavorites, k);
    assert c in Render(all, selectedId, favorites, showOnlyFavorites).cards;
    var j :| 0 <= j < |all| && all[j] == c.style;
    BuiltInFacts();
    forall i | 0 <= i < |BUILT_IN_IDS|
      ensures BUILT_IN_IDS[i] != c.style.id
    {
      assert all[i] == STYLE_PRESETS[i];
      assert STYLE_PRESETS[i] in STYLE_PRESETS;
      assert i != j;
    }
  }

  /** When no style carries `id`, no card does. */
  lemma NoCardWithout(styles: seq<StylePreset>, id: string, selectedId: Option<string>,
                      favorites: seq<string>, showOnlyFavorites: bool)
    requires forall st :: st in styles ==> st.id != id
    ensures var g := Render(styles, selectedId, favorites, showOnlyFavorites);
      g.Cards? ==> forall c :: c in g.cards ==> c.style.id != id
  {
    var g := Render(styles, selectedId, favorites, showOnlyFavorites);
    if g.Cards? {
      forall c | c in g.cards
        ensures c.style.id != id
      {
        var k :| 0 <= k < |g.cards| && g.cards[k] == c;
        CardFromStyles(styles, selectedId, favorites, showOnlyFavorites, k);
      }
    }
  }
}

=== FILE: seqs.dfy ===
/** Sequence helpers that mirror `Array.prototype.filter` and the ordering
    facts the app relies on. */
module Seqs {

  /** `a` can be obtained from `b` by deleting elements, keeping the order of
      the rest (greedy left-to-right matching, which finds a match whenever
      one exists). */
  predicate IsSubsequence<T(==)>(a: seq<T>, b: seq<T>)
    decreases |b|
  {
    && |a| <= |b|
    && (|a| == 0
        || (if a[0] == b[0] then IsSubsequence(a[1..], b[1..]) else IsSubsequence(a, b[1..])))
  }

  /** No element occurs twice. */
  predicate NoDup<T(==)>(s: seq<T>) {
    forall i, j :: 0 <= i < j < |s| ==> s[i] != s[j]
  }

  /** `s.filter(p)`: the elements satisfying `p`, in their original order,
      each as often as it occurs in `s`. */
  function Filter<T(==, !new)>(s: seq<T>, p: T -> bool): (r: seq<T>)
    ensures |r| <= |s|
    ensures forall x :: x in r <==> x in s && p(x)
    ensures IsSubsequence(r, s)
    decreases |s|
  {
    if |s| == 0 then []
    else if p(s[0]) then [s[0]] + Filter(s[1..], p)
    else Filter(s[1..], p)
  }

  /** Each element satisfying the test is kept as often as it occurs, and
      every other element is dropped. */
  lemma {:induction false} FilterCount<T(!new)>(s: seq<T>, p: T -> bool)
    ensures forall x :: multiset(Filter(s, p))[x] == if p(x) then multiset(s)[x] else 0
    decreases |s|
  {
    if |s| > 0 {
      FilterCount(s[1..], p);
      assert s == [s[0]] + s[1..];
    }
  }

  /** Filtering keeps everything when every element satisfies the test. */
  lemma {:induction false} FilterAll<T(!new)>(s: seq<T>, p: T -> bool)
    requires forall x :: x in s ==> p(x)
    ensures Filter(s, p) == s
    decreases |s|
  {
    if |s| > 0 {
      assert s == [s[0]] + s[1..];
      FilterAll(s[1..], p);
    }
  }

  /** Filtering distributes over concatenation. */
  lemma {:induction false} FilterAppend<T(!new)>(a: seq<T>, b: seq<T>, p: T -> bool)
    ensures Filter(a + b, p) == Filter(a, p) + Filter(b, p)
    decreases |a|
  {
    if |a| == 0 {
      assert a + b == b;
    } else {
      assert (a + b)[0] == a[0];
      assert (a + b)[1..] == a[1..] + b;
      FilterAppend(a[1..], b, p);
    }
  }

  /** Filtering never introduces a duplicate. */
  lemma {:induction false} FilterNoDup<T(!new)>(s: seq<T>, p: T -> bool)
    requires NoDup(s)
    ensures NoDup(Filter(s, p))
    decreases |s|
  {
    if |s| > 0 {
      assert NoDup(s[1..]) by {
        forall i, j | 0 <= i < j < |s| - 1
          ensures s[1..][i] != s[1..][j]
        {
          assert s[1..][i] == s[i + 1] && s[1..][j] == s[j + 1];
        }
      }
      FilterNoDup(s[1..], p);
      if p(s[0]) {
        var r := Filter(s[1..], p);
        assert s[0] !in s[1..];
        assert s[0] !in r;
      }
    }
  }
}

=== FILE: store.dfy ===
/** The favorites list and the user's saved styles (App.tsx): the pure list
    updates behind `toggleFavorite`, `handleDeleteStyle` and
    `handleSaveCustomStyle`. */
module Store {
  import opened Seqs
  import opened Text
  import opened Types
  import opened Catalog

  /** The test `f => f !== id`. */
  function OtherThan(id: string): string -> bool {
    (f: string) => f != id
  }

  /** The test `s => s.id !== id`. */
  function IdOtherThan(id: string): StylePreset -> bool {
    (st: StylePreset) => st.id != id
  }

  /** `favorites.filter(f => f !== id)`. */
  function RemoveFavorite(favorites: seq<string>, id: string): (r: seq<string>)
    ensures id !in r
    ensures forall f :: f != id ==> (f in r <==> f in favorites)
    ensures IsSubsequence(r, favorites)
  {
    Filter(favorites, OtherThan(id))
  }

  /** `filter` keeps every other identifier as many times as it occurred. */
  lemma RemoveFavoriteCount(favorites: seq<string>, id: string)
    ensures forall f :: multiset(RemoveFavorite(favorites, id))[f] == if f == id then 0 else multiset(favorites)[f]
  {
    FilterCount(favorites, OtherThan(id));
  }

  /** Adds `id` when absent (at the end), removes every occurrence when
      present. */
  function ToggleFavorite(favorites: seq<string>, id: string): (r: seq<string>)
    ensures id in r <==> id !in favorites
    ensures forall f :: f != id ==> (f in r <==> f in favorites)
    ensures id !in favorites ==> |r| == |favorites| + 1 && r[..|favorites|] == favorites
    ensures NoDup(favorites) ==> NoDup(r)
  {
    if id in favorites then
      FilterNoDupCall(favorites, OtherThan(id));
      RemoveFavorite(favorites, id)
    else
      var r := favorites + [id];
      assert r[..|favorites|] == favorites;
      r
  }

  /** `Filter` keeps `NoDup` (wrapper so it can be called before a value). */
  lemma FilterNoDupCall(s: seq<string>, p: string -> bool)
    ensures NoDup(s) ==> NoDup(Filter(s, p))
  {
    if NoDup(s) {
      FilterNoDup(s, p);
    }
  }

  /** Toggling the same identifier twice restores membership; when it was
      absent it restores the list exactly. */
  lemma {:induction false} ToggleTwice(favorites: seq<string>, id: string)
    ensures forall f :: f in ToggleFavorite(ToggleFavorite(favorites, id), id) <==> f in favorites
    ensures id !in favorites ==> ToggleFavorite(ToggleFavorite(favorites, id), id) == favorites
  {
    if id !in favorites {
      var p := OtherThan(id);
      FilterAppend(favorites, [id], p);
      FilterAll(favorites, p);
      assert Filter([id], p) == [];
    }
  }

  /** `userStyles.filter(s => s.id !== id)`. */
  function RemoveStyle(styles: seq<StylePreset>, id: string): (r: seq<StylePreset>)
    ensures forall st :: st in r <==> st in styles && st.id != id
    ensures IsSubsequence(r, styles)
    ensures UniqueIds(styles) ==> UniqueIds(r)
  {
    var r := Filter(styles, IdOtherThan(id));
    RemoveStyleUnique(styles, id);
    r
  }

  /** `filter` keeps every style with another identifier as many times as
      it occurred. */
  lemma RemoveStyleCount(styles: seq<StylePreset>, id: string)
    ensures forall st :: multiset(RemoveStyle(styles, id))[st] == if st.id == id then 0 else multiset(styles)[st]
  {
    FilterCount(styles, IdOtherThan(id));
  }

  /** Removing styles keeps identifiers distinct. */
  lemma {:induction false} RemoveStyleUnique(styles: seq<StylePreset>, id: string)
    ensures UniqueIds(styles) ==> UniqueIds(Filter(styles, IdOtherThan(id)))
    decreases |styles|
  {
    var p := IdOtherThan(id);
    if |styles| > 0 && UniqueIds(styles) {
      var tail := styles[1..];
      assert UniqueIds(tail) by {
        forall i, j | 0 <= i < j < |tail|
          ensures tail[i].id != tail[j].id
        {
          assert tail[i] == styles[i + 1] && tail[j] == styles[j + 1];
        }
      }
      RemoveStyleUnique(tail, id);
      var rest := Filter(tail, p);
      if p(styles[0]) {
        assert forall st :: st in rest ==> st.id != styles[0].id;
        var r := [styles[0]] + rest;
        forall i, j | 0 <= i < j < |r|
          ensures r[i].id != r[j].id
        {
          if i == 0 {
            assert r[j] in rest;
          } else {
            assert r[i] == rest[i - 1] && r[j] == rest[j - 1];
          }
        }
      }
    }
  }

  /** Appending a style whose identifier is new keeps identifiers
      distinct. */
  lemma AppendKeepsUnique(styles: seq<StylePreset>, st: StylePreset)
    requires UniqueIds(styles)
    requires forall u :: u in styles ==> u.id != st.id
    ensures UniqueIds(styles + [st])
  {
    var r := styles + [st];
    forall i, j | 0 <= i < j < |r|
      ensures r[i].id != r[j].id
    {
      assert r[i] == styles[i];
      if j < |styles| {
        assert r[j] == styles[j];
      } else {
        assert r[i] in styles;
      }
    }
  }

  /** Saving a style whose identifier is neither built-in nor already
      saved keeps the combined catalog's identifiers distinct. */
  lemma SaveNewIdKeepsUnique(userStyles: seq<StylePreset>, st: StylePreset)
    requires UniqueIds(AllStyles(userStyles))
    requires st.id !in BUILT_IN_IDS
    requires forall u :: u in userStyles ==> u.id != st.id
    ensures UniqueIds(AllStyles(userStyles + [st]))
  {
    assert AllStyles(userStyles + [st]) == AllStyles(userStyles) + [st];
    BuiltInFacts();
    AppendKeepsUnique(AllStyles(userStyles), st);
  }

  /** Once `id` is removed from the saved styles, and no built-in carries
      it, the combined catalog has no style with that identifier. */
  lemma RemovedFromCatalog(userStyles: seq<StylePreset>, id: string)
    requires id !in BUILT_IN_IDS
    ensures forall st :: st in AllStyles(RemoveStyle(userStyles, id)) ==> st.id != id
  {
    BuiltInFacts();
  }

  /** Decimal digits of `n`, as a template literal prints a non-negative
      integer. */
  function NatToDecimal(n: nat): (r: string)
    ensures |r| >= 1
    ensures forall i :: 0 <= i < |r| ==> '0' <= r[i] <= '9'
    ensures n >= 10 ==> r[0] != '0'
  {
    var d := ['0' + ((n % 10) as char)];
    if n < 10 then d else NatToDecimal(n / 10) + d
  }

  /** The number a string of decimal digits denotes. */
  function DecimalValue(s: string): nat
    requires forall i :: 0 <= i < |s| ==> '0' <= s[i] <= '9'
    decreases |s|
  {
    if |s| == 0 then 0
    else DecimalValue(s[..|s| - 1]) * 10 + ((s[|s| - 1] as int) - ('0' as int))
  }

  /** Printing then reading a clock value gives it back. */
  lemma {:induction false} DecimalRoundTrip(n: nat)
    ensures DecimalValue(NatToDecimal(n)) == n
  {
    if n >= 10 {
      DecimalRoundTrip(n / 10);
      var r := NatToDecimal(n);
      assert r[..|r| - 1] == NatToDecimal(n / 10);
    }
  }

  /** `custom-${Date.now()}`, with the clock reading as a parameter. */
  function CustomId(now: nat): (id: string)
    ensures HasCustomPrefix(id) && |id| > |CUSTOM_ID_PREFIX|
    ensures id[|CUSTOM_ID_PREFIX|..] == NatToDecimal(now)
  {
    var id := CUSTOM_ID_PREFIX + NatToDecimal(now);
    assert id[..|CUSTOM_ID_PREFIX|] == CUSTOM_ID_PREFIX;
    id
  }

  /** Distinct clock readings give distinct identifiers. */
  lemma CustomIdInjective(a: nat, b: nat)
    requires CustomId(a) == CustomId(b)
    ensures a == b
  {
    var p := |CUSTOM_ID_PREFIX|;
    assert CustomId(a)[p..] == NatToDecimal(a);
    assert CustomId(b)[p..] == NatToDecimal(b);
    DecimalRoundTrip(a);
    DecimalRoundTrip(b);
  }

  /** The preset `handleSaveCustomStyle` builds from the naming dialog and
      the custom prompt: trimmed name and prompt, a generated identifier, and
      the custom flag set. */
  function NewCustomStyle(name: string, prompt: string, now: nat): (st: StylePreset)
    ensures st.isCustom
    ensures st.id == CustomId(now) && st.id !in BUILT_IN_IDS && st.id != ""
    ensures st.name == Trim(name) && st.prompt == Trim(prompt)
    ensures st.description == "Your custom vision" && st.icon == "\U{2728}"
  {
    var st := StylePreset(CustomId(now), Trim(name), "Your custom vision", Trim(prompt), "\U{2728}", true);
    CustomIdNotBuiltIn(st.id);
    st
  }

}

=== FILE: text.dfy ===
/** Strings as the app's handlers see them: `String.prototype.trim` and the
    character range `btoa` accepts. */
module Text {

  /** The code points ECMAScript's `trim` strips: WhiteSpace (TAB, VT, FF,
      SPACE, NBSP, ZWNBSP and the Zs category) and LineTerminator (LF, CR,
      LS, PS). */
  predicate IsWhitespace(c: char) {
    || c == '\t' || c == '\n' || c == '\U{000B}' || c == '\U{000C}' || c == '\r'
    || c == ' ' || c == '\U{00A0}' || c == '\U{1680}'
    || ('\U{2000}' <= c <= '\U{200A}')
    || c == '\U{2028}' || c == '\U{2029}' || c == '\U{202F}' || c == '\U{205F}'
    || c == '\U{3000}' || c == '\U{FEFF}'
  }

  /** Every character is whitespace (vacuously true of ""). */
  predicate IsBlank(s: string) {
    forall i :: 0 <= i < |s| ==> IsWhitespace(s[i])
  }

  /** Drops leading whitespace: the result is the longest suffix of `s` that
      does not start with whitespace. */
  function TrimStart(s: string): (r: string)
    ensures |r| <= |s| && r == s[|s| - |r|..]
    ensures forall i :: 0 <= i < |s| - |r| ==> IsWhitespace(s[i])
    ensures r == [] || !IsWhitespace(r[0])
    decreases |s|
  {
    if |s| > 0 && IsWhitespace(s[0]) then TrimStart(s[1..]) else s
  }

  /** Drops trailing whitespace: the longest prefix of `s` that does not end
      with whitespace. */
  function TrimEnd(s: string): (r: string)
    ensures |r| <= |s| && r == s[..|r|]
    ensures forall i :: |r| <= i < |s| ==> IsWhitespace(s[i])
    ensures r == [] || !IsWhitespace(r[|r| - 1])
    decreases |s|
  {
    if |s| > 0 && IsWhitespace(s[|s| - 1]) then TrimEnd(s[..|s| - 1]) else s
  }

  /** `s.trim()`: the infix of `s` left after removing whitespace at both
      ends. It is empty exactly when `s` is blank, and otherwise starts and
      ends with a non-whitespace character. */
  function Trim(s: string): (r: string)
    ensures |r| <= |s|
    ensures r == [] <==> IsBlank(s)
    ensures r != [] ==> !IsWhitespace(r[0]) && !IsWhitespace(r[|r| - 1])
  {
    TrimEnds(s);
    TrimEnd(TrimStart(s))
  }

  /** What `Trim`'s contract needs about the two one-sided trims. */
  lemma {:induction false} TrimEnds(s: string)
    ensures TrimEnd(TrimStart(s)) == [] <==> IsBlank(s)
    ensures TrimEnd(TrimStart(s)) != [] ==> !IsWhitespace(TrimEnd(TrimStart(s))[0])
  {
    var t := TrimStart(s);
    var r := TrimEnd(t);
    if r == [] {
      assert IsBlank(t);
      assert t == [];
    } else {
      assert r[0] == t[0];
      assert t[0] == s[|s| - |t|];
    }
  }

  /** Trimming twice changes nothing more. */
  lemma {:induction false} TrimIdempotent(s: string)
    ensures Trim(Trim(s)) == Trim(s)
  {
    var r := Trim(s);
    if r != [] {
      assert TrimStart(r) == r;
      assert TrimEnd(r) == r;
    }
  }

  /** `Trim(s)` is a contiguous piece of `s` starting where `TrimStart`
      stopped; everything removed at either end is whitespace. */
  lemma {:induction false} TrimIsInfix(s: string)
    ensures var a := |s| - |TrimStart(s)|;
      var r := Trim(s);
      && a + |r| <= |s|
      && r == s[a..a + |r|]
      && (forall i :: 0 <= i < a ==> IsWhitespace(s[i]))
      && (forall i :: a + |r| <= i < |s| ==> IsWhitespace(s[i]))
  {
    TrimIsSlice(s);
    TrimDropsBlankTail(s);
  }

  /** The middle part of `TrimIsInfix`: `Trim(s)` is the slice of `s`
      starting where `TrimStart` cut. */
  lemma {:induction false} TrimIsSlice(s: string)
    ensures var a := |s| - |TrimStart(s)|;
      a + |Trim(s)| <= |s| && Trim(s) == s[a..a + |Trim(s)|]
  {
    var t := TrimStart(s);
    InfixOfSuffix(s, |s| - |t|, t, TrimEnd(t));
  }

  /** The trailing part of `TrimIsInfix`. */
  lemma {:induction false} TrimDropsBlankTail(s: string)
    ensures var a := |s| - |TrimStart(s)|;
      forall i :: a + |Trim(s)| <= i < |s| ==> IsWhitespace(s[i])
  {
    var t := TrimStart(s);
    BlankTailOfSuffix(s, |s| - |t|, t, |TrimEnd(t)|);
  }

  /** A prefix of a suffix of `s` is an infix of `s`. */
  lemma InfixOfSuffix(s: string, a: nat, t: string, r: string)
    requires a <= |s| && t == s[a..] && |r| <= |t| && r == t[..|r|]
    ensures r == s[a..a + |r|]
  {
  }

  /** Whitespace at the end of a suffix of `s` is whitespace at the end of `s`. */
  lemma BlankTailOfSuffix(s: string, a: nat, t: string, n: nat)
    requires a <= |s| && t == s[a..] && n <= |t|
    requires forall i :: n <= i < |t| ==> IsWhitespace(t[i])
    ensures forall i :: a + n <= i < |s| ==> IsWhitespace(s[i])
  {
    forall i | a + n <= i < |s|
      ensures IsWhitespace(s[i])
    {
      assert t[i - a] == s[i];
    }
  }

  /** `s.length` in JavaScript: the number of UTF-16 code units, two for a
      code point above U+FFFF and one for any other. */
  function Utf16Length(s: string): (n: nat)
    ensures |s| <= n <= 2 * |s|
    ensures n == |s| <==> forall i :: 0 <= i < |s| ==> s[i] <= '\U{FFFF}'
    ensures |s| == 1 ==> n == CodeUnits(s[0])
    decreases |s|
  {
    if |s| == 0 then 0
    else CodeUnits(s[0]) + Utf16Length(s[1..])
  }

  /** UTF-16 code units of one code point: a surrogate pair above U+FFFF. */
  function CodeUnits(c: char): nat {
    if c <= '\U{FFFF}' then 1 else 2
  }

  /** The UTF-16 length of a concatenation is the sum of the lengths, so
      with the one-character values it fixes the length of every text. */
  lemma {:induction false} Utf16LengthAppend(a: string, b: string)
    ensures Utf16Length(a + b) == Utf16Length(a) + Utf16Length(b)
    decreases |a|
  {
    if |a| == 0 {
      assert a + b == b;
    } else {
      assert (a + b)[0] == a[0] && (a + b)[1..] == a[1..] + b;
      Utf16LengthAppend(a[1..], b);
    }
  }

  /** `btoa` accepts only strings whose code points all fit in one byte. */
  predicate IsLatin1(s: string) {
    forall i :: 0 <= i < |s| ==> s[i] <= '\U{00FF}'
  }
}

=== FILE: traces.dfy ===
/** The app as a sequence of user events (App.tsx's rendered controls):
    each event takes effect only while the control that raises it is on
    screen, and gateway calls settle before the next event. Over every such
    trace from mount, the selection and the custom prompt exclude each other
    and the screen is never blank. */
module Traces {
  import opened Wrappers
  import opened Text
  import opened Types
  import opened Catalog
  import opened Store
  import opened StyleGrid
  import opened DeepLink
  import opened App

  /** What is drawn: one of the five screens, or nothing (a step whose
      screen needs a field that is missing). */
  datatype Screen = WelcomeScreen | CameraScreen | ReviewScreen | LoadingScreen | ResultScreen | Blank

  function ScreenOf(s: Session): (r: Screen)
    ensures r == Blank <==>
      (s.state.step == Review && s.state.capturedImage.None?)
      || (s.state.step == Result && !Present(s.state.resultImage))
    ensures r == LoadingScreen <==> s.state.step == Transforming
  {
    match s.state.step
    case Welcome => WelcomeScreen
    case Camera => CameraScreen
    case Review => if s.state.capturedImage.Some? then ReviewScreen else Blank
    case Transforming => LoadingScreen
    case Result => if Present(s.state.resultImage) then ResultScreen else Blank
  }

  /** The user's actions, with the outcome of any gateway call they start. */
  datatype Event =
    | StartCapture
    | CameraCapture(dataUrl: string, analysis: Outcome<string>)
    | CameraCancel
    | ReviewReset
    | EditDescription(text: string)
    | ToggleBlur
    | EditPrompt(text: string)
    | OpenNaming
    | CancelNaming
    | EditStyleName(text: string)
    | ConfirmSave(now: nat)
    | ShowAll
    | ShowFavorites
    | PickStyle(style: StylePreset)
    | PressHeart(id: string)
    | ConfirmDelete(id: string)
    | PressTransform(result: Outcome<string>)
    | PressBack
    | ResultReset
    | SetIntensity(value: int)
    | PressAnimate(video: Outcome<string>)
    | HoldCompare(pressed: bool)

  /** The style grid on the review screen. */
  function GridOf(s: Session): GridView {
    Render(AllStyles(s.userStyles), SelectedId(s), s.favorites, s.showOnlyFavorites)
  }

  /** Some card's delete control deletes `id`. */
  predicate ShowsDelete(s: Session, id: string) {
    var g := GridOf(s);
    g.Cards? && exists k :: 0 <= k < |g.cards| && g.cards[k].deleteTarget == Some(id)
  }

  /** The control raising `e` is on screen and not disabled. The grid's own
      controls are allowed for any style or identifier while the review
      screen is up, which admits every trace the grid allows and more. */
  function Enabled(s: Session, e: Event): (b: bool)
    ensures b ==> ScreenOf(s) != Blank && ScreenOf(s) != LoadingScreen
  {
    var screen := ScreenOf(s);
    match e
    case StartCapture => screen == WelcomeScreen
    case CameraCapture(_, _) => screen == CameraScreen
    case CameraCancel => screen == CameraScreen
    case ReviewReset => screen == ReviewScreen
    case EditDescription(_) => screen == ReviewScreen
    case ToggleBlur => screen == ReviewScreen
    case EditPrompt(_) => screen == ReviewScreen
    case OpenNaming => screen == ReviewScreen && HasLongCustomText(s)
    case CancelNaming => screen == ReviewScreen && s.isNamingStyle
    case EditStyleName(_) => screen == ReviewScreen && s.isNamingStyle
    case ConfirmSave(_) => screen == ReviewScreen && s.isNamingStyle && Trim(s.newStyleName) != ""
    case ShowAll => screen == ReviewScreen
    case ShowFavorites => screen == ReviewScreen
    case PickStyle(_) => screen == ReviewScreen
    case PressHeart(_) => screen == ReviewScreen
    case ConfirmDelete(_) => screen == ReviewScreen
    case PressTransform(_) => screen == ReviewScreen && IsReadyToTransform(s) && !s.isAnalyzing
    case PressBack => screen == ResultScreen
    case ResultReset => screen == ResultScreen
    case SetIntensity(_) => screen == ResultScreen && !Present(s.state.videoUrl)
    case PressAnimate(_) => screen == ResultScreen && !Present(s.state.videoUrl)
    case HoldCompare(_) => screen == ResultScreen && !Present(s.state.videoUrl)
  }

  /** The handler bound to the control. */
  function Handle(s: Session, e: Event): Session {
    match e
    case StartCapture => Start(s)
    case CameraCapture(d, a) => Capture(s, d, a)
    case CameraCancel => Reset(s)
    case ReviewReset => Reset(s)
    case EditDescription(t) => s.(editableBaseDescription := t)
    case ToggleBlur => s.(blurBackground := !s.blurBackground)
    case EditPrompt(t) => EditCustomPrompt(s, t)
    case OpenNaming => s.(isNamingStyle := true)
    case CancelNaming => s.(isNamingStyle := false)
    case EditStyleName(t) => s.(newStyleName := t)
    case ConfirmSave(now) => SaveCustomStyle(s, now)
    case ShowAll => s.(showOnlyFavorites := false)
    case ShowFavorites => s.(showOnlyFavorites := true)
    case PickStyle(st) => SelectStyle(s, st)
    case PressHeart(id) => ToggleFavoriteOf(s, id)
    case ConfirmDelete(id) => DeleteStyle(s, id)
    case PressTransform(res) => Transform(s, res)
    case PressBack => Back(s)
    case ResultReset => Reset(s)
    case SetIntensity(v) => s.(intensity := v)
    case PressAnimate(v) => Animate(s, v)
    case HoldCompare(p) => s.(showOriginal := p)
  }

  /** One event: its handler runs when its control is available. */
  function Apply(s: Session, e: Event): Session {
    if Enabled(s, e) then Handle(s, e) else s
  }

  /** A whole trace of events, first to last. */
  function Run(s: Session, events: seq<Event>): Session
    decreases |events|
  {
    if |events| == 0 then s else Run(Apply(s, events[0]), events[1..])
  }

  /** The gateway hands back a non-empty image data URL on success. */
  predicate WellFormed(e: Event) {
    e.PressTransform? && e.result.Ok? ==> e.result.value != ""
  }

  /** A selection and a non-blank custom prompt never coexist (blank: the
      trimmed text is empty, see `Trim`). */
  predicate Exclusive(s: Session) {
    s.state.selectedStyle.None? || IsBlank(s.customPrompt)
  }

  /** The step agrees with the fields its screen needs, no call is pending,
      and a video exists only on the result step. */
  predicate Consistent(s: Session) {
    && s.state.step != Transforming
    && !s.isAnalyzing
    && (s.state.step == Review ==> s.state.capturedImage.Some?)
    && (s.state.step == Result ==> s.state.capturedImage.Some? && Present(s.state.resultImage))
    && (s.state.videoUrl.Some? ==> s.state.step == Result)
  }

  predicate Inv(s: Session) {
    Exclusive(s) && Consistent(s)
  }

  /** A consistent session always draws a screen other than the loading
      screen. */
  lemma ConsistentScreen(s: Session)
    requires Consistent(s)
    ensures ScreenOf(s) != Blank && ScreenOf(s) != LoadingScreen
  {
  }

  /** Every handler keeps the selection and a non-blank custom prompt
      apart, whether or not its control is on screen. */
  lemma HandleKeepsExclusive(s: Session, e: Event)
    requires Exclusive(s)
    ensures Exclusive(Handle(s, e))
  {
    assert IsBlank("");
    match e
    case EditPrompt(t) =>
      var r := EditCustomPrompt(s, t);
      assert Trim(t) != "" ==> r.state.selectedStyle == None;
    case _ =>
  }

  /** The step a control's screen guarantees, for the handlers that move
      between screens. */
  predicate OnScreen(s: Session, e: Event) {
    match e
    case StartCapture => s.state.step == Welcome
    case CameraCapture(_, _) => s.state.step == Camera
    case PressTransform(_) => s.state.step == Review
    case PressBack => s.state.step == Result
    case PressAnimate(_) => s.state.step == Result
    case _ => true
  }

  lemma EnabledOnScreen(s: Session, e: Event)
    requires Enabled(s, e)
    ensures OnScreen(s, e)
  {
    match e
    case StartCapture =>
    case CameraCapture(_, _) =>
    case PressTransform(_) =>
    case PressBack =>
    case PressAnimate(_) =>
    case _ =>
  }

  /** Handlers run from their own screen keep the session consistent. */
  lemma HandleKeepsConsistent(s: Session, e: Event)
    requires Consistent(s) && WellFormed(e) && OnScreen(s, e)
    ensures Consistent(Handle(s, e))
  {
    match e
    case StartCapture => StartKeepsConsistent(s);
    case CameraCapture(d, a) => CaptureKeepsConsistent(s, d, a);
    case PressTransform(res) => TransformKeepsConsistent(s, res);
    case PressBack => BackKeepsConsistent(s);
    case PressAnimate(v) => AnimateKeepsConsistent(s, v);
    case CameraCancel => ResetKeepsConsistent(s);
    case ReviewReset => ResetKeepsConsistent(s);
    case ResultReset => ResetKeepsConsistent(s);
    case ConfirmSave(now) => SaveKeepsConsistent(s, now);
    case ConfirmDelete(id) => DeleteKeepsConsistent(s, id);
    case _ => StayKeepsConsistent(s, e);
  }

  lemma StartKeepsConsistent(s: Session)
    requires Consistent(s) && s.state.step == Welcome
    ensures Consistent(Handle(s, StartCapture))
  {
  }

  lemma CaptureKeepsConsistent(s: Session, dataUrl: string, analysis: Outcome<string>)
    requires Consistent(s) && s.state.step == Camera
    ensures Consistent(Handle(s, CameraCapture(dataUrl, analysis)))
  {
  }

  lemma TransformKeepsConsistent(s: Session, res: Outcome<string>)
    requires Consistent(s) && s.state.step == Review && WellFormed(PressTransform(res))
    ensures Consistent(Handle(s, PressTransform(res)))
  {
  }

  lemma BackKeepsConsistent(s: Session)
    requires Consistent(s) && s.state.step == Result
    ensures Consistent(Handle(s, PressBack))
  {
  }

  lemma AnimateKeepsConsistent(s: Session, v: Outcome<string>)
    requires Consistent(s) && s.state.step == Result
    ensures Consistent(Handle(s, PressAnimate(v)))
  {
  }

  /** The remaining handlers leave the step, the frame, the result and the
      video alone. */
  lemma StayKeepsConsistent(s: Session, e: Event)
    requires Consistent(s)
    requires !e.StartCapture? && !e.CameraCapture? && !e.PressTransform? && !e.PressBack? && !e.PressAnimate?
    requires !e.CameraCancel? && !e.ReviewReset? && !e.ResultReset? && !e.ConfirmSave? && !e.ConfirmDelete?
    ensures Consistent(Handle(s, e))
  {
  }

  /** Cancelling or starting over returns to the welcome step with nothing
      captured. */
  lemma ResetKeepsConsistent(s: Session)
    ensures Consistent(Reset(s))
  {
  }

  lemma SaveKeepsConsistent(s: Session, now: nat)
    requires Consistent(s)
    ensures Consistent(SaveCustomStyle(s, now))
  {
  }

  lemma DeleteKeepsConsistent(s: Session, id: string)
    requires Consistent(s)
    ensures Consistent(DeleteStyle(s, id))
  {
  }

  /** The loading screen draws no control: once a handler has set the
      loading step, no event interleaves with its pending call. */
  lemma LoadingBlocksInput(s: Session, e: Event)
    requires s.state.step == Transforming
    ensures !Enabled(s, e)
  {
  }

  /** Back pressed during the key check of the animate handler, followed by
      the video, leaves nothing on screen and no control to leave it by. */
  lemma KeyCheckRaceStrands(s: Session, v: string)
    requires s.state.step == Result && Present(s.state.resultImage) && !Present(s.state.videoUrl)
    ensures var r := AnimateSettle(AnimateResume(Back(s)), Ok(v));
      ScreenOf(r) == Blank && forall e :: !Enabled(r, e)
  {
    BackDuringKeyCheck(s, v);
  }

  /** Every event keeps the invariant. */
  lemma ApplyKeepsInv(s: Session, e: Event)
    requires Inv(s) && WellFormed(e)
    ensures Inv(Apply(s, e))
  {
    if Enabled(s, e) {
      EnabledOnScreen(s, e);
      HandleKeepsExclusive(s, e);
      HandleKeepsConsistent(s, e);
    }
  }

  /** Every trace keeps the invariant. */
  lemma {:induction false} RunKeepsInv(s: Session, events: seq<Event>)
    requires Inv(s)
    requires forall k :: 0 <= k < |events| ==> WellFormed(events[k])
    ensures Inv(Run(s, events))
    decreases |events|
  {
    if |events| > 0 {
      ApplyKeepsInv(s, events[0]);
      RunKeepsInv(Apply(s, events[0]), events[1..]);
    }
  }

  /** From mount, whatever the start-up URL resolves to and whatever the
      user does, the selection and a non-blank custom prompt exclude each
      other and every screen can be drawn. (`Boot` is `ApplyLink` of the
      resolved link on the initial session.) */
  lemma Reachable(favorites: seq<string>, userStyles: seq<StylePreset>, link: Link, events: seq<Event>)
    requires forall k :: 0 <= k < |events| ==> WellFormed(events[k])
    ensures var s := Run(ApplyLink(Initial(favorites, userStyles), link), events);
      Exclusive(s) && Consistent(s) && ScreenOf(s) != Blank
  {
    var b := ApplyLink(Initial(favorites, userStyles), link);
    LinkInv(favorites, userStyles, link);
    RunKeepsInv(b, events);
    ConsistentScreen(Run(b, events));
  }

  /** The session after mount satisfies the invariant, whichever link the
      start-up URL resolved to. */
  lemma LinkInv(favorites: seq<string>, userStyles: seq<StylePreset>, link: Link)
    ensures Inv(ApplyLink(Initial(favorites, userStyles), link))
  {
    assert IsBlank("");
  }

  /** With the invariant, the prompt sent is the custom text exactly when no
      style is selected. */
  lemma OnePromptSource(s: Session)
    requires Exclusive(s) && TransformCall(s).Some?
    ensures Trim(s.customPrompt) != "" ==>
      (s.state.selectedStyle.None? && TransformCall(s).value.prompt == CUSTOM_PROMPT_PREFIX + s.customPrompt)
    ensures s.state.selectedStyle.Some? ==> TransformCall(s).value.prompt == s.state.selectedStyle.value.prompt
  {
  }

  /** Deleting a custom style through its card removes it everywhere at
      once: no card shows it, it is not a favourite, and it is not
      selected. */
  lemma DeleteCascades(s: Session, id: string)
    requires UniqueIds(AllStyles(s.userStyles))
    requires ShowsDelete(s, id)
    ensures var r := DeleteStyle(s, id);
      && id !in r.favorites
      && (r.state.selectedStyle.Some? ==> r.state.selectedStyle.value.id != id)
      && (GridOf(r).Cards? ==> forall c :: c in GridOf(r).cards ==> c.style.id != id)
  {
    var g := GridOf(s);
    var k :| 0 <= k < |g.cards| && g.cards[k].deleteTarget == Some(id);
    DeletableNotBuiltIn(s.userStyles, SelectedId(s), s.favorites, s.showOnlyFavorites, k);
    var r := DeleteStyle(s, id);
    assert r.userStyles == RemoveStyle(s.userStyles, id);
    RemovedFromCatalog(s.userStyles, id);
    NoCardWithout(AllStyles(r.userStyles), id, SelectedId(r), r.favorites, r.showOnlyFavorites);
  }
}

=== FILE: types.dfy ===
/** The app's records (types.ts), as immutable values. */
module Types {
  import opened Wrappers

  /** A named outfit-transformation instruction bundle. The optional
      `isCustom` flag of `types.ts` is `false` when absent. */
  datatype StylePreset = StylePreset(
    id: string,
    name: string,
    description: string,
    prompt: string,
    icon: string,
    isCustom: bool)

  /** A captured still frame and, once the analysis call resolved, its
      description. */
  datatype CapturedImage = CapturedImage(dataUrl: string, analysis: Option<string>)

  /** The five screens of the app. */
  datatype Step = Welcome | Camera | Review | Transforming | Result

  /** The app's main state record, including the `videoUrl` extension the
      app adds to it. */
  datatype AppState = AppState(
    step: Step,
    capturedImage: Option<CapturedImage>,
    selectedStyle: Option<StylePreset>,
    resultImage: Option<string>,
    error: Option<string>,
    videoUrl: Option<string>)

  /** Style identifiers are pairwise distinct. */
  predicate UniqueIds(styles: seq<StylePreset>) {
    forall i, j :: 0 <= i < j < |styles| ==> styles[i].id != styles[j].id
  }
}

=== FILE: wrappers.dfy ===
/** Nullable values, gateway call outcomes and JavaScript truthiness of a
    nullable string, shared by every other module. */
module Wrappers {

  /** A JavaScript value that may be `null` (or `undefined`). */
  datatype Option<+T> = None | Some(value: T)

  /** How an awaited call into the external AI gateway settles: it resolves
      with a value, or it rejects (the handler's `catch` branch). */
  datatype Outcome<+T> = Ok(value: T) | Fail

  /** JavaScript truthiness of a `string | null`: present and non-empty. */
  predicate Present(o: Option<string>) {
    o.Some? && o.value != ""
  }
}
